=== FILE: README.md ===
# Task console handlers, modelled in Dafny

This project models the event handlers of a CRUD back-office console: a
Next.js/React front end for departments, categories, sub-categories,
services, products, tasks and users. It also models the console's login and
session hook. Each handler becomes a pure function. It takes the screen's
state and the event and returns the next state. Where the handler talks to
the API server, it also returns the requests it sends, as data
(`Http.Request`: `Get`, `Post`, `Put` or `Delete` with a path and a JSON
object body). What the server answers is an input: a `succeeded` flag, or the
fetched data, or `None` for a failed fetch.

The JavaScript the handlers depend on is written out in `Js`:

- numbers are `Int(n)` or `NaN`;
- `trim`, `split` on one character and `join`;
- `toString` of an integer;
- `parseInt(s, 10)`, and `Number(s)` / `+s`.

The round trips the screens rely on are proved. For example,
`parseInt(String(n), 10) == n` and `Number(String(n)) == n`. These are what
make an option's value attribute come back as the id it was rendered from.

One module per screen:

| module | screen |
|---|---|
| `CategoryTable` | category edit dialog: the prefill, and the request plan of `handleUpdate` |
| `ServiceTable` | service list, its category → sub-category selects, create/update payloads |
| `SubCategoryTable` | filtered sub-category list, the shared create/update dialog |
| `Pagination` | the 8-rows-per-page pager used by the service and sub-category tables |
| `UpdateUserModal` | department checkboxes, prefill, update payload |
| `TaskTable` | task dialog, department → services dependency, save dispatch |
| `CreateProductModal`, `UpdateProductModal`, `ProductTable` | guarded and unguarded selects, product payloads, name lookups |
| `DepartmentTable` | department dialog with its required name |
| `AppSidebar` | role-dependent menu, open/closed, hover and dropdown flags |
| `LoginPage`, `UseAuth` | login outcome and destination, token expiry, session restore and logout |

Shared modules: `Wrappers` (`Option`), `Seqs` (`find`, `findIndex`,
`reverse`, `map`), `Js`, `Http`, `Browser` and `Catalog` (the
category/sub-category shape several screens load). `Browser` holds
`localStorage` as a map, and the browser's constraint validation of a form
before its submit handler runs. A `required` input must be non-empty, and a
`required` select must hold one of its non-placeholder options. An input of
type `email` must hold an address as the HTML standard's "valid e-mail
address" defines it. Only dialogs whose fields sit in a `<form>` are checked
this way. The service and task dialogs submit from a button's click handler,
so nothing holds them back.

## Model

| member | source | states |
|---|---|---|
| CategoryTable.EditPrefill | src/app/category/CategoryTable.tsx:171-179 | the Edit button fills the dialog with the category's name and its sub-category names joined by ", " |
| CategoryTable.ParseNames | src/app/category/CategoryTable.tsx:79-81 | the edited text gives one name per comma plus one, so at least one name; each name is trimmed and holds no comma; empty text gives one empty name |
| CategoryTable.SubCategoryPlan | src/app/category/CategoryTable.tsx:84-111 | position i below the number of edited names holds a PUT to stored entry i, or a POST under the category when none is stored there; positions from the edited count up to the stored count hold the DELETEs of those stored entries; the length is edited + max(0, stored − edited) |
| CategoryTable.PlanUpdate | src/app/category/CategoryTable.tsx:59-112 | no selected category means no requests; a changed name puts the rename first; text equal to the joined stored names plans no sub-category request; otherwise the sub-category plan follows the rename |
| CategoryTable.SubCategoryPlanCounts | src/app/category/CategoryTable.tsx:84-111 | #PUT = min(edited, stored), #POST = max(0, edited − stored), #PUT + #POST = edited, #DELETE = max(0, stored − edited) |
| CategoryTable.RenamePlannedIff | src/app/category/CategoryTable.tsx:66-72 | a request renaming the category is in the plan if and only if the edited name differs from the stored one |
| CategoryTable.SubCategoryPlanNeverRenames | src/app/category/CategoryTable.tsx:84-111 | no sub-category request targets the category's own path |
| CategoryTable.UntouchedFormPlansNothing | src/app/category/CategoryTable.tsx:171-179 | saving the dialog exactly as Edit filled it plans no request |
| CategoryTable.ReparsePrefill | src/app/category/CategoryTable.tsx:75-81 | stored names without commas or surrounding whitespace parse back from their joined text unchanged |
| CategoryTable.ReformattedNamesRewriteInPlace | src/app/category/CategoryTable.tsx:78-103 | text that differs from the joined names but parses to the same names plans one PUT per stored entry carrying its own name, and nothing else |
| Catalog.FindByIdText | src/app/service/ServiceTable.tsx:82 | the first category whose decimal id is the key: none exactly when no id matches, and the category at i when i is the first match |
| Catalog.SubCategoriesFor | src/app/service/ServiceTable.tsx:81-84 | the options are the first matching category's sub-categories, or empty when no id matches |
| Catalog.SubCategoriesForOption | src/app/service/ServiceTable.tsx:81-84 | with unique ids, choosing a category's option offers exactly its sub-categories |
| Catalog.SubCategoriesForPlaceholder | src/app/service/ServiceTable.tsx:81-84 | the placeholder value "" offers no sub-categories |
| Catalog.CategoryOptionValues | src/app/product/CreateProductModal.tsx:190-195 | one option value per loaded category, in order, each the decimal text of its id |
| Catalog.SubCategoryOptionValues | src/app/product/UpdateProductModal.tsx:186-191 | one option value per offered sub-category, in order, each the decimal text of its id |
| ServiceTable.ServicesLoaded | src/app/service/ServiceTable.tsx:54-57 | the table holds the fetched services in reverse order, and nothing else changes |
| ServiceTable.CategoryChanged | src/app/service/ServiceTable.tsx:86-91 | the category value is stored, the sub-category reset to "", and the options become the matching category's sub-categories, empty when none matches |
| ServiceTable.SubCategoryChanged | src/app/service/ServiceTable.tsx:93-95 | only the sub-category value changes |
| ServiceTable.InputChanged | src/app/service/ServiceTable.tsx:97-105 | only the named field changes; departmentId becomes Number(value), the text fields keep the typed text |
| ServiceTable.Payload | src/app/service/ServiceTable.tsx:109 | the body holds exactly the four form fields plus categoryId and subCategoryId through Number |
| ServiceTable.Create | src/app/service/ServiceTable.tsx:107-117 | one POST of the payload to /service; the dialog closes only when it succeeded |
| ServiceTable.Update | src/app/service/ServiceTable.tsx:119-131 | no selection sends nothing and changes nothing; otherwise one PUT to the selected service's path, closing on success |
| ServiceTable.EditPrefill | src/app/service/ServiceTable.tsx:189-199 | the record is selected, its four fields copied and its ids written in decimal into the selects, so that Number gives them back; the options and every other part of the state are untouched |
| ServiceTable.AddService | src/app/service/ServiceTable.tsx:157-160 | the four fields are blanked and the dialog opened, while the category and sub-category values stay |
| ServiceTable.CurrentRows | src/app/service/ServiceTable.tsx:145-148 | at most eight rows, exactly services[(p−1)·8, p·8) clipped to the list |
| ServiceTable.UntouchedEditSendsRecord | src/app/service/ServiceTable.tsx:122 | saving an edited service untouched sends the record's own values back |
| ServiceTable.PlaceholderSendsZero | src/app/service/ServiceTable.tsx:109 | a select left on its placeholder sends 0, since +"" is 0 |
| ServiceTable.CategoryOptionOffersItsSubCategories | src/app/service/ServiceTable.tsx:86-91 | with unique ids a category's option offers its sub-categories, and the placeholder offers none |
| ServiceTable.DepartmentOptionStoresId | src/app/service/ServiceTable.tsx:103 | choosing a department option stores its id as a number |
| ServiceTable.EditKeepsStaleOptions | src/app/service/ServiceTable.tsx:189-199 | after choosing category i and then editing a service of another category c, the select shows c while the options are still i's: they differ from c's and lack the service's sub-category |
| Pagination.Slice | src/app/service/ServiceTable.tsx:148 | JS slice with clamped bounds: for 0 ≤ start ≤ end it is the clipped sub-range |
| Pagination.PageRows | src/app/subCategory/SubCategoryTable.tsx:126-129 | at most eight rows; page p ≥ 1 shows rows [(p−1)·8, p·8) clipped to the list |
| Pagination.PageCount | src/app/service/ServiceTable.tsx:226 | the least count of 8-row pages that holds every row |
| Pagination.PagesArePrefix | src/app/service/ServiceTable.tsx:145-148 | pages 1..k together are the first 8·k rows |
| Pagination.PagesCoverList | src/app/service/ServiceTable.tsx:226 | pages 1..⌈n/8⌉ together are the whole list, in order |
| Pagination.PageRowsNonEmpty | src/app/subCategory/SubCategoryTable.tsx:201 | from page 1 on, a page has rows exactly when a button is rendered for it |
| Pagination.NextEnabledOnEmptyList | src/app/service/ServiceTable.tsx:240 | as written, Next is never disabled on an empty table |
| Pagination.NextAsWrittenLeavesRange | src/app/subCategory/SubCategoryTable.tsx:213-215 | as written, Next on the empty table's page 1 goes to page 2, which shows nothing and keeps Next enabled |
| Pagination.NavigateStaysInRange | src/app/service/ServiceTable.tsx:219-242 | with Next disabled from the last page on, no click leaves pages 1..max(1, ⌈n/8⌉) |
| Pagination.NavigateAgreesInRange | src/app/service/ServiceTable.tsx:219-242 | on a non-empty table the corrected pager acts exactly like the one as written |
| SubCategoryTable.ListedRows | src/app/subCategory/SubCategoryTable.tsx:46-48 | a row is kept if and only if its nested category name and its own name are non-empty |
| SubCategoryTable.ListedRowsAppend | src/app/subCategory/SubCategoryTable.tsx:46-48 | the filter works row by row and keeps the fetched order |
| SubCategoryTable.ListedRowsIdempotent | src/app/subCategory/SubCategoryTable.tsx:46-48 | filtering twice is filtering once |
| SubCategoryTable.RowsLoaded | src/app/subCategory/SubCategoryTable.tsx:43-49 | the table holds exactly the listed rows in their fetched order, and nothing else changes |
| SubCategoryTable.CategorySelected | src/app/subCategory/SubCategoryTable.tsx:231 | the form's category becomes parseInt of the option's value |
| SubCategoryTable.NameTyped | src/app/subCategory/SubCategoryTable.tsx:244 | only the form's name changes |
| SubCategoryTable.Submit | src/app/subCategory/SubCategoryTable.tsx:69-102 | a 0/NaN category or an empty name sends nothing; otherwise a PUT to the selected row or a POST when none is selected; success closes both dialogs and resets the form to {0, ""} |
| SubCategoryTable.OpenCreateModalAsWritten | src/app/subCategory/SubCategoryTable.tsx:105-108 | the create dialog opens with an empty form; the earlier selection and everything else stay |
| SubCategoryTable.OpenCreateModal | src/app/subCategory/SubCategoryTable.tsx:105-108 | corrected: also clears the selection |
| SubCategoryTable.OpenUpdateModal | src/app/subCategory/SubCategoryTable.tsx:111-118 | the row is selected, the form takes its nested category id and its name, the update dialog opens, and nothing else changes |
| SubCategoryTable.Cancel | src/app/subCategory/SubCategoryTable.tsx:256-259 | both dialogs close and nothing else changes |
| SubCategoryTable.CurrentRows | src/app/subCategory/SubCategoryTable.tsx:126-129 | at most eight rows, the clipped slice of the page |
| SubCategoryTable.PlaceholderBlocksSubmit | src/app/subCategory/SubCategoryTable.tsx:72 | the placeholder category parses to NaN, which blocks the submit |
| SubCategoryTable.CategoryOptionStoresId | src/app/subCategory/SubCategoryTable.tsx:231 | a category's option stores that category's id |
| SubCategoryTable.AddAfterEditUpdatesAsWritten | src/app/subCategory/SubCategoryTable.tsx:78-108 | as written, edit → cancel → add → submit PUTs to the previously edited row |
| SubCategoryTable.AddAlwaysCreates | src/app/subCategory/SubCategoryTable.tsx:78-108 | with the corrected dialog, a filled-in add always POSTs |
| UpdateUserModal.Without | src/app/users/UpdateUserModal.tsx:86 | the id is gone, and every other id is present exactly when it was |
| UpdateUserModal.Toggle | src/app/users/UpdateUserModal.tsx:84-88 | membership of the id flips; a present id is removed everywhere, an absent one appended at the end |
| UpdateUserModal.ToggleKeepsOthers | src/app/users/UpdateUserModal.tsx:84-88 | with the toggled id removed, the list is the same before and after: others keep presence and order |
| UpdateUserModal.ToggleTwiceAbsent | src/app/users/UpdateUserModal.tsx:84-88 | toggling an absent id twice gives the list back |
| UpdateUserModal.ToggleKeepsNoDuplicates | src/app/users/UpdateUserModal.tsx:84-88 | a duplicate-free list stays duplicate-free |
| UpdateUserModal.DepartmentIds | src/app/users/UpdateUserModal.tsx:71 | the ids of the user's departments in order, or none when departments are missing |
| UpdateUserModal.Prefill | src/app/users/UpdateUserModal.tsx:58-81 | only when shown with a user id and a fetched user does the form take the user's fields |
| UpdateUserModal.UpdatePayload | src/app/users/UpdateUserModal.tsx:94-101 | exactly the five text fields and departmentIds; userType is not a key |
| UpdateUserModal.Submit | src/app/users/UpdateUserModal.tsx:103-155 | a PUT of the payload to /users/{userId} is sent if and only if the five required inputs are filled and the e-mail value is a valid address |
| UpdateUserModal.UserTypeIsNotSent | src/app/users/UpdateUserModal.tsx:94-103 | changing the user type changes nothing that is sent |
| UpdateUserModal.AddressWithoutAtBlocksSubmit | src/app/users/UpdateUserModal.tsx:151 | an e-mail value without "@" blocks the submit |
| UpdateUserModal.UntouchedPrefillSendsUser | src/app/users/UpdateUserModal.tsx:58-155 | a fetched user with filled fields and an address local@domain is sent back unchanged from the untouched dialog |
| TaskTable.OpenModal | src/app/task/TasktTable.tsx:108-123 | editing exactly when a task is given, with the task as the form; otherwise every text empty and every id 0 |
| TaskTable.DepartmentChanged | src/app/task/TasktTable.tsx:126-129 | the department is set, the service reset to 0, nothing else changes, and that department's services are requested |
| TaskTable.ServicesFetched | src/app/task/TasktTable.tsx:69-77 | the options are the fetched services, or empty when the fetch failed |
| TaskTable.ServiceChosen | src/app/task/TasktTable.tsx:219 | only the service id changes |
| TaskTable.Save | src/app/task/TasktTable.tsx:91-105 | PUT to /tasks/{form.id} when editing, POST to /tasks otherwise; closes only on success |
| TaskTable.CloseModal | src/app/task/TasktTable.tsx:285 | the dialog closes and nothing else changes |
| TaskTable.TaskBody | src/app/task/TasktTable.tsx:94-97 | the body holds the task's ten fields: every text field under its own key, and the three ids |
| TaskTable.TextEdited | src/app/task/TasktTable.tsx:233-273 | a text input changes its own field and no other |
| TaskTable.DepartmentChangeClearsService | src/app/task/TasktTable.tsx:126-127 | a department change never keeps the service chosen before it |
| TaskTable.SaveAfterEditOpenSendsTask | src/app/task/TasktTable.tsx:91-123 | saving right after opening the dialog on a task PUTs that task unchanged to its own path |
| TaskTable.SaveAfterAddOpenSendsBlank | src/app/task/TasktTable.tsx:91-123 | saving right after opening the dialog for a new task POSTs the blank task |
| CreateProductModal.CategoryNamed | src/app/product/CreateProductModal.tsx:55-57 | the first category with the parsed id; none exactly when no category has it |
| CreateProductModal.CategoryChanged | src/app/product/CreateProductModal.tsx:40-67 | a value naming no category, the placeholder included, changes nothing; otherwise id and name are set, the sub-category id and name cleared, and the options become the first matching category's sub-categories |
| CreateProductModal.SubCategoryChanged | src/app/product/CreateProductModal.tsx:69-79 | takes effect only for a value naming an offered option, and then sets the value and the name of the first option with that id |
| CreateProductModal.Payload | src/app/product/CreateProductModal.tsx:84-91 | exactly the four text fields and both ids through parseInt |
| CreateProductModal.Submit | src/app/product/CreateProductModal.tsx:92-212 | a POST of the payload to /products is sent if and only if the four text inputs are filled and both selects hold one of their options |
| CreateProductModal.GuardedChangesKeepSelectionConsistent | src/app/product/CreateProductModal.tsx:53-79 | both guarded handlers keep the chosen sub-category among the offered options |
| CreateProductModal.PlaceholderCategoryIgnored | src/app/product/CreateProductModal.tsx:60 | choosing the placeholder changes nothing |
| CreateProductModal.CategoryOptionSelects | src/app/product/CreateProductModal.tsx:53-66 | with unique ids, a category's option selects it with its name and offers its sub-categories |
| CreateProductModal.CategoryChangeAwaitsSubCategory | src/app/product/CreateProductModal.tsx:53-67 | choosing a category clears the sub-category, so the submit is held back until one is chosen |
| CreateProductModal.ChosenOptionsAreSent | src/app/product/CreateProductModal.tsx:53-212 | with the text inputs filled, choosing category i and then its sub-category j submits exactly those two ids |
| UpdateProductModal.PrefillRequests | src/app/product/UpdateProductModal.tsx:41-62 | the product is fetched only while shown with a non-empty id |
| UpdateProductModal.Prefilled | src/app/product/UpdateProductModal.tsx:46-67 | the three text fields are copied, the ids written in decimal (so parseInt gives them back), the options become those of the first category with that decimal id, and nothing else changes |
| UpdateProductModal.PrefillOffersProductCategory | src/app/product/UpdateProductModal.tsx:50-67 | with unique ids, the prefill offers the sub-categories of the product's own category |
| UpdateProductModal.CategoryChanged | src/app/product/UpdateProductModal.tsx:64-74 | any value, "" included, becomes the category; the sub-category is cleared and the options become the first matching category's sub-categories |
| UpdateProductModal.SubCategoryChanged | src/app/product/UpdateProductModal.tsx:76-78 | the value is taken without a membership check |
| UpdateProductModal.Payload | src/app/product/UpdateProductModal.tsx:83-89 | exactly the three text fields and both ids through parseInt |
| UpdateProductModal.Submit | src/app/product/UpdateProductModal.tsx:91-186 | a PUT is sent if and only if the three text inputs are filled and the sub-category select holds one of its options; its path is /products/ followed by parseInt of the product id, NaN when it has no digits |
| UpdateProductModal.UntouchedPrefillSendsProduct | src/app/product/UpdateProductModal.tsx:43-94 | when the product's category is loaded with its sub-category and its text fields are filled, submitting the untouched prefill sends the fetched product back to its own path |
| UpdateProductModal.CategoryChangeAwaitsSubCategory | src/app/product/UpdateProductModal.tsx:69-74 | a category change leaves no stale sub-category, and the submit waits until one is chosen |
| UpdateProductModal.PlaceholderCategoryBlocksSubmit | src/app/product/UpdateProductModal.tsx:69-89 | choosing the placeholder category offers no option, so whatever the sub-category select holds the submit is held back |
| UpdateProductModal.StalePrefillOffersNothing | src/app/product/UpdateProductModal.tsx:46-67 | when the product's category is not among the loaded ones, the prefill offers no option, its sub-category names none, and the submit is held back |
| ProductTable.GetCategoryName | src/app/product/ProductTable.tsx:75-78 | "Unknown" when no category has the id; otherwise the name of the first one that has it |
| ProductTable.GetSubCategoryName | src/app/product/ProductTable.tsx:80-83 | the same with the text id through Number |
| ProductTable.HandleEdit | src/app/product/ProductTable.tsx:59-63 | the product and its id are recorded and the update flag is set |
| ProductTable.HideUpdate | src/app/product/ProductTable.tsx:155 | the update flag is cleared |
| ProductTable.DeleteRequest | src/app/product/ProductTable.tsx:65-67 | one DELETE to /products/{id}, the row's id text used as it is |
| ProductTable.DeleteAndUpdateTargetSamePath | src/app/product/ProductTable.tsx:59-67 | for a product whose id is decimal integer text, Delete and the update dialog opened by Edit send to the same path |
| ProductTable.LeadingZerosSplitPaths | src/app/product/ProductTable.tsx:65-67 | an id written "007" is deleted at /products/007 but updated at /products/7, since the update dialog passes it through parseInt |
| ProductTable.EditShowsDialogForProduct | src/app/product/ProductTable.tsx:59-63 | after Edit the dialog is present, given that product's id |
| ProductTable.HideThenEditShows | src/app/product/ProductTable.tsx:152-159 | hiding removes the dialog; Edit brings it back |
| ProductTable.NoSelectionNoDialog | src/app/product/ProductTable.tsx:152 | without a selected product the dialog is not present |
| ProductTable.CategoryNameOfListedId | src/app/product/ProductTable.tsx:75-78 | with unique ids, a listed category's id shows its name |
| ProductTable.SubCategoryNameOfListedId | src/app/product/ProductTable.tsx:80-83 | with unique ids, a sub-category id in decimal text shows its name |
| ProductTable.NonNumericSubCategoryUnknown | src/app/product/ProductTable.tsx:80-83 | a text id that Number maps to NaN shows "Unknown" |
| DepartmentTable.DepartmentBody | src/app/department/departmentTable.tsx:42 | the body is the form: id and departmentName |
| DepartmentTable.Add | src/app/department/departmentTable.tsx:35-49 | an empty name sends nothing and changes nothing; otherwise one POST, closing on success |
| DepartmentTable.Update | src/app/department/departmentTable.tsx:51-68 | an empty name sends nothing; otherwise one PUT to /departments/{form.id}, closing on success |
| DepartmentTable.Save | src/app/department/departmentTable.tsx:197 | update while editing, add otherwise |
| DepartmentTable.OpenModal | src/app/department/departmentTable.tsx:85-94 | a given department is edited as it is; otherwise adding from {0, ""} |
| DepartmentTable.CloseModal | src/app/department/departmentTable.tsx:96-99 | the dialog closes and the form resets to {0, ""} |
| DepartmentTable.NameTyped | src/app/department/departmentTable.tsx:190 | only the form's name changes |
| DepartmentTable.EditSavesToItsOwnPath | src/app/department/departmentTable.tsx:58-60 | editing and saving with a name PUTs to that department's own path |
| DepartmentTable.EmptyNameBlocksSave | src/app/department/departmentTable.tsx:36-39 | a cleared name blocks saving in either mode |
| AppSidebar.MenuItems | src/app/components/app-sidebar.tsx:35-41 | Dashboard then Department; User Management is present, as a third item, if and only if the role is exactly SUPERADMIN |
| AppSidebar.ToggleSidebar | src/app/components/app-sidebar.tsx:43-45 | only the open flag changes, to its negation |
| AppSidebar.Resized | src/app/components/app-sidebar.tsx:25-27 | mobile if and only if the width is below 768 |
| AppSidebar.MouseEnter | src/app/components/app-sidebar.tsx:92 | opens the sidebar unless mobile, where nothing changes |
| AppSidebar.MouseLeave | src/app/components/app-sidebar.tsx:93 | closes the sidebar unless mobile, where nothing changes |
| AppSidebar.ToggleDropdown | src/app/components/app-sidebar.tsx:114 | the clicked group flips; the other groups and the sidebar flags stay (also lines 163 and 212) |
| AppSidebar.HandleLogout | src/app/components/app-sidebar.tsx:47-49 | corrected: the session is cleared with the hook's logout before navigating to "/" |
| AppSidebar.LogoutAsWrittenKeepsSuperAdminMenu | src/app/components/app-sidebar.tsx:47-49 | as written, logging out a super-administrator with a valid token keeps the session, so the next page still shows User Management |
| AppSidebar.LogoutEndsSession | src/app/components/app-sidebar.tsx:47-49 | with the corrected logout the next mount restores no role and the menu lacks User Management |
| AppSidebar.ToggleSidebarTwice | src/app/components/app-sidebar.tsx:43-45 | two toggles are the identity |
| AppSidebar.ToggleDropdownTwice | src/app/components/app-sidebar.tsx:163 | two clicks on one group header are the identity |
| AppSidebar.ToggleDropdownsCommute | src/app/components/app-sidebar.tsx:212 | clicks on two headers commute |
| AppSidebar.HoverOnlyOnWideScreens | src/app/components/app-sidebar.tsx:92-93 | on mobile hovering changes nothing; on a wide screen enter then leave ends closed |
| AppSidebar.SuperAdminMenuExtends | src/app/components/app-sidebar.tsx:38-40 | the super-administrator's menu is everyone else's plus User Management |
| LoginPage.Destination | src/app/login/page.tsx:45-55 | /dashboard if and only if the role is HOD, MANAGER, EXECUTIVE or SUPERADMIN, "/" otherwise |
| LoginPage.LoginRequest | src/app/login/page.tsx:18-27 | a POST of username and password to /auth/login is sent if and only if both required inputs are filled |
| LoginPage.StoreSession | src/app/login/page.tsx:38-40 | the three keys are set, userId as decimal text, and every other key keeps its value |
| LoginPage.HandleSubmit | src/app/login/page.tsx:13-103 | nothing happens while an input is empty; otherwise the error is cleared first; not ok gives "Invalid credentials" and stores nothing; a rejection shows its message; ok stores the session and picks the destination, unless userId is missing, when only the token is stored, the TypeError's message is shown and nothing navigates |
| LoginPage.NavigatesOnlyOnSuccess | src/app/login/page.tsx:29-56 | for a filled-in page, navigation happens if and only if the response is ok and carries a user id, and the stored session then reads back as the response gave it |
| LoginPage.FailureShowsError | src/app/login/page.tsx:29-60 | a not-ok response, or an ok one without a user id, shows a non-empty error |
| LoginPage.SuccessClearsEarlierError | src/app/login/page.tsx:15 | an ok login leaves no earlier error showing |
| LoginPage.EmptyFieldBlocksSubmit | src/app/login/page.tsx:81-103 | with either input empty no request is sent and the page is unchanged, whatever the server would answer |
| LoginPage.MissingUserIdLeavesHalfSession | src/app/login/page.tsx:38-39 | an ok response without a user id stores the new token while the id and role of an earlier session stay |
| UseAuth.IsTokenExpired | src/app/hooks/useAuth.ts:29-36 | a token with no middle segment or an undecodable payload is expired; without exp it never is; otherwise when exp·1000 < now |
| UseAuth.Login | src/app/hooks/useAuth.ts:38-68 | loading is false afterwards; resolves true if and only if the service answered with an unexpired token and an id, and then stores the three keys and sets the user; a failure or an expired token stores nothing and names the cause; a missing id stores the token alone and reports the TypeError |
| UseAuth.Logout | src/app/hooks/useAuth.ts:70-75 | storage is emptied and the user id and role become null |
| UseAuth.Mount | src/app/hooks/useAuth.ts:77-88 | a present, expired token logs out; otherwise the user is restored, id through Number, exactly when both the id and the role are stored and non-empty |
| UseAuth.ExpiryIsMonotonic | src/app/hooks/useAuth.ts:29-36 | an expired token stays expired as time passes |
| UseAuth.NoExpNeverExpires | src/app/hooks/useAuth.ts:31-32 | a well-formed token whose payload lacks exp is never expired |
| UseAuth.LoginThenMountRestores | src/app/hooks/useAuth.ts:52-87 | what a successful login stores is what the next mount restores, while the token is valid and the role non-empty |
| UseAuth.LogoutThenMountRestoresNothing | src/app/hooks/useAuth.ts:70-88 | after logout a mount restores no user |
| UseAuth.MissingIdRestoresEarlierUser | src/app/hooks/useAuth.ts:43-87 | a login without an id fails, yet stores its valid token next to an earlier session's id and role, which the next mount restores |
| Browser.GetItem | src/app/hooks/useAuth.ts:78-80 | the stored text when the key is present, null otherwise |
| Browser.EmailNeedsAt | src/app/users/UpdateUserModal.tsx:151 | a value without "@" is not a valid e-mail address |
| Browser.SingleLabelAddressValid | src/app/users/UpdateUserModal.tsx:151 | local@domain is valid when the local part is non-empty and made of allowed characters and the domain is one well-formed label |
| Js.Trim | src/app/category/CategoryTable.tsx:81 | the result has no whitespace at either end and is no longer than the input |
| Js.TrimPadded | src/app/category/CategoryTable.tsx:81 | trim removes exactly the whitespace around a trimmed string |
| Js.Split | src/app/category/CategoryTable.tsx:80 | one piece per separator plus one, none containing the separator |
| Js.SplitJoin | src/app/category/CategoryTable.tsx:75-81 | splitting the join of separator-free parts gives the parts back, each but the first behind the separator's tail |
| Js.ParseIntOfIntToString | src/app/subCategory/SubCategoryTable.tsx:231 | parseInt of an integer's decimal text is that integer |
| Js.NumberOfIntToString | src/app/service/ServiceTable.tsx:103 | Number of an integer's decimal text is that integer |
| Js.IntToStringInjective | src/app/service/ServiceTable.tsx:82 | two integers have the same decimal text if and only if they are equal |
| Seqs.FindIndex | src/app/product/ProductTable.tsx:76 | the position of the first element satisfying the test; none exactly when no element does |
| Seqs.Find | src/app/service/ServiceTable.tsx:82 | an element satisfying the test with none before it; none exactly when no element does |
| Seqs.Reverse | src/app/service/ServiceTable.tsx:57 | same length, element i is element n−1−i |
| Seqs.Map | src/app/users/UpdateUserModal.tsx:71 | same length, element i is f of element i |

## Left out

- Network calls are not performed: requests are returned as values and responses are inputs. The two hosts the source uses (localhost and a LAN address) are not modelled, only the paths.
- The refetch that follows a successful mutation is left out of each plan: it is a plain GET of the list and returns new data, not a decision.
- Concurrency is not modelled. This covers `Promise.all` and partial failure in the category update, the order in which React applies state updates, and the stale `categories` closure the product update prefill reads (it is modelled as reading the current categories).
- Browser services are not modelled: `window.confirm`, `alert`, toasts, console logging, `setTimeout` and `router.push`. Destinations are returned as paths. `localStorage` is a map.
- Token decoding (`atob`, `JSON.parse`) and `Date.now()` are parameters of `UseAuth`.
- Numbers are integers or NaN: no floating point, no precision limit.
- Js.ToNumber: only decimal integer text is recognised. Fractions, exponents, hex and `Infinity`, which `Number` also accepts, give NaN here.
- Js.Trim: strips a fixed set of whitespace characters, not every Unicode space separator.
- Rendering is not modelled: JSX and CSS, which labels show when the sidebar is collapsed, and the department "N/A" lookup in the service table.
- DepartmentTable.DepartmentBody: the body holds a department's id and name. When editing, the source PUTs the fetched department object itself, so any further keys the server returned go out with it; those are not modelled.
- Delete handlers are not modelled for services, sub-categories, departments, categories and tasks. Each is a single DELETE to the item's path behind a confirmation. Only the product delete is modelled, as an example.
- The category screen's create handler is not modelled: it only copies two fields into a POST.
- The vendor, customer, site, task-type, service-type and user-list screens, and the create-user dialog, only copy record fields into forms and bodies. They are not part of this model.
- The page wrappers and the dashboard page are layout only and are not modelled.
- SubCategoryTable.OpenUpdateModal requires the row to carry its nested category. The source reads `category.id` without a check, and only listed rows, which always carry one, have an Edit button.
- TaskTable.TaskBody: the body holds the ten fields of a task. When editing, the source sends the fetched task object itself, so any further keys the server returned go out with it; those are not modelled.
- TaskTable.ServiceChosen takes the service id as an integer, as `parseInt` of an option value rendered from an integer id gives.
- SubCategoryTable.CategorySelected uses `parseInt(value, 10)`. The source omits the radix, which differs only for text starting "0x"; no option value rendered from a decimal id starts that way.
- Browser.ValidEmail: the browser strips leading and trailing whitespace from an `email` input's value before checking it; the model checks the value as held.
- UseAuth.Login: an id that is `null` rather than missing fails the same way, with "null" in place of "undefined" in the TypeError's message; that case is not distinguished. The message is V8's wording.
- LoginPage.HandleSubmit: a `userId` that is `null` rather than missing is not distinguished either; the same half session results.
- TaskTable.DepartmentChanged takes the department id as an integer. The select's options are rendered from integer ids and 0, so `parseInt` of their values always gives one.

## Findings

| source | as written | input that shows it | evidently intended | confidence | as-written member | corrected member |
|---|---|---|---|---|---|---|
| src/app/service/ServiceTable.tsx:240 (same at src/app/subCategory/SubCategoryTable.tsx:215) | Next is disabled only when the page equals ⌈n/8⌉ | an empty table: ⌈0/8⌉ = 0, so on page 1 Next is enabled and leads to page 2, 3, … which show nothing | Next disabled from the last page on (page ≥ ⌈n/8⌉) | not executed | Pagination.NextAsWrittenLeavesRange | Pagination.NavigateStaysInRange |
| src/app/components/app-sidebar.tsx:47-49 | `handleLogout` only navigates to "/"; the stored token, id and role stay | a super-administrator with a valid token clicks Logout: the next page's auth hook restores the role from storage and the menu still offers User Management | clear the session (the hook's `logout`) before navigating | not executed | AppSidebar.LogoutAsWrittenKeepsSuperAdminMenu | AppSidebar.LogoutEndsSession |
| src/app/subCategory/SubCategoryTable.tsx:105-108 | `openCreateModal` resets the form but not `selectedSubCategory` | edit a row, cancel, click Add, fill in the form and submit: the request is a PUT to the edited row, overwriting it | opening the create dialog clears the selection so the submit POSTs | not executed | SubCategoryTable.AddAfterEditUpdatesAsWritten | SubCategoryTable.AddAlwaysCreates |

=== FILE: app_sidebar.dfy ===
/** The navigation sidebar: its role-dependent menu, its open/closed state
    driven by the toggle buttons and (on wide screens) by the mouse, and
    its three dropdown groups, and the Logout button. */
module AppSidebar {
  import opened Wrappers
  import opened Browser
  import UseAuth

  datatype MenuItem = MenuItem(title: string, url: string)

  /** The three dropdown groups below the menu. */
  datatype Dropdown = AddressBook | ServiceManagement | InventoryManagement

  datatype SidebarState = SidebarState(
    isSidebarOpen: bool,
    inventoryOpen: bool,
    serviceOpen: bool,
    addressBookOpen: bool,
    isMobile: bool)

  /** The state on first render: open, every dropdown closed, not mobile until measured. */
  const Initial := SidebarState(true, false, false, false, false)

  /** The width below which the layout counts as mobile. */
  const MobileBreakpoint := 768

  const UserManagement := MenuItem("User Management", "/users")

  /** `menuItems`: Dashboard and Department for everyone, then User
      Management for a super-administrator only. */
  function MenuItems(userType: Option<string>): (r: seq<MenuItem>)
    ensures |r| >= 2
    ensures r[0] == MenuItem("Dashboard", "/dashboard") && r[1] == MenuItem("Department", "/department")
    ensures UserManagement in r <==> userType == Some("SUPERADMIN")
    ensures |r| == (if userType == Some("SUPERADMIN") then 3 else 2)
  {
    [MenuItem("Dashboard", "/dashboard"), MenuItem("Department", "/department")]
    + (if userType == Some("SUPERADMIN") then [UserManagement] else [])
  }

  /** `toggleSidebar` */
  function ToggleSidebar(st: SidebarState): (r: SidebarState)
    ensures r.isSidebarOpen == !st.isSidebarOpen
    ensures r == st.(isSidebarOpen := r.isSidebarOpen)
  {
    st.(isSidebarOpen := !st.isSidebarOpen)
  }

  /** `checkScreenSize`, run on mount and on every resize. */
  function Resized(st: SidebarState, innerWidth: int): (r: SidebarState)
    ensures r.isMobile <==> innerWidth < MobileBreakpoint
    ensures r == st.(isMobile := r.isMobile)
  {
    st.(isMobile := innerWidth < MobileBreakpoint)
  }

  /** The mouse entering the menu opens the sidebar, except on mobile. */
  function MouseEnter(st: SidebarState): (r: SidebarState)
    ensures st.isMobile ==> r == st
    ensures !st.isMobile ==> r == st.(isSidebarOpen := true)
  {
    if st.isMobile then st else st.(isSidebarOpen := true)
  }

  /** The mouse leaving the menu closes the sidebar, except on mobile. */
  function MouseLeave(st: SidebarState): (r: SidebarState)
    ensures st.isMobile ==> r == st
    ensures !st.isMobile ==> r == st.(isSidebarOpen := false)
  {
    if st.isMobile then st else st.(isSidebarOpen := false)
  }

  /** Whether a dropdown group is expanded. */
  function IsOpen(st: SidebarState, d: Dropdown): bool
  {
    match d
    case AddressBook => st.addressBookOpen
    case ServiceManagement => st.serviceOpen
    case InventoryManagement => st.inventoryOpen
  }

  /** A dropdown group's header button. */
  function ToggleDropdown(st: SidebarState, d: Dropdown): (r: SidebarState)
    ensures IsOpen(r, d) == !IsOpen(st, d)
    ensures forall e :: e != d ==> IsOpen(r, e) == IsOpen(st, e)
    ensures r.isSidebarOpen == st.isSidebarOpen && r.isMobile == st.isMobile
  {
    match d
    case AddressBook => st.(addressBookOpen := !st.addressBookOpen)
    case ServiceManagement => st.(serviceOpen := !st.serviceOpen)
    case InventoryManagement => st.(inventoryOpen := !st.inventoryOpen)
  }

  /** What the Logout button leaves behind: the storage and the route it navigates to. */
  datatype LogoutOutcome = LogoutOutcome(storage: Storage, destination: string)

  /** `handleLogout` as written: it navigates to `/` and touches nothing else,
      so the stored session survives. */
  function HandleLogoutAsWritten(storage: Storage): (r: LogoutOutcome)
    ensures r.storage == storage && r.destination == "/"
  {
    LogoutOutcome(storage, "/")
  }

  /** `handleLogout` as evidently intended: the hook's `logout` clears the
      session, then the page navigates to `/`. */
  function HandleLogout(st: UseAuth.AuthState, storage: Storage): (r: LogoutOutcome)
    ensures r.storage == UseAuth.Logout(st, storage).storage
    ensures r.storage == map[] && r.destination == "/"
  {
    LogoutOutcome(UseAuth.Logout(st, storage).storage, "/")
  }

  /** The role a fresh mount of the auth hook reads from storage: what the
      menu of the next page is built from. */
  function RestoredRole(storage: Storage, decode: string -> UseAuth.TokenPayload, now: int): Option<string>
  {
    UseAuth.Mount(UseAuth.Initial, storage, decode, now).state.userType
  }

  /** Two toggles of the sidebar give back the state. */
  lemma ToggleSidebarTwice(st: SidebarState)
    ensures ToggleSidebar(ToggleSidebar(st)) == st
  {
  }

  /** Two clicks on the same dropdown header give back the state. */
  lemma ToggleDropdownTwice(st: SidebarState, d: Dropdown)
    ensures ToggleDropdown(ToggleDropdown(st, d), d) == st
  {
  }

  /** Clicks on two different headers commute. */
  lemma ToggleDropdownsCommute(st: SidebarState, d: Dropdown, e: Dropdown)
    ensures ToggleDropdown(ToggleDropdown(st, d), e) == ToggleDropdown(ToggleDropdown(st, e), d)
  {
  }

  /** On mobile the mouse never changes anything; on a wide screen enter
      then leave leaves the sidebar closed whatever it was before. */
  lemma HoverOnlyOnWideScreens(st: SidebarState)
    ensures st.isMobile ==> MouseLeave(MouseEnter(st)) == st
    ensures !st.isMobile ==> !MouseLeave(MouseEnter(st)).isSidebarOpen
  {
  }

  /** The super-administrator's menu is everyone else's with User Management appended. */
  lemma SuperAdminMenuExtends(userType: Option<string>)
    requires userType != Some("SUPERADMIN")
    ensures MenuItems(Some("SUPERADMIN")) == MenuItems(userType) + [UserManagement]
  {
  }

  /** As written, logging out a super-administrator whose token is still valid
      leaves the session in storage: the next page restores the role and its
      menu still offers User Management. */
  lemma LogoutAsWrittenKeepsSuperAdminMenu(storage: Storage, decode: string -> UseAuth.TokenPayload, now: int)
    requires "access_token" in storage && !UseAuth.IsTokenExpired(storage["access_token"], decode, now)
    requires Present(GetItem(storage, "userId"))
    requires GetItem(storage, "userType") == Some("SUPERADMIN")
    ensures UserManagement in MenuItems(RestoredRole(HandleLogoutAsWritten(storage).storage, decode, now))
  {
  }

  /** With the session cleared, the next page restores no role, and its menu
      offers only what everyone sees. */
  lemma LogoutEndsSession(st: UseAuth.AuthState, storage: Storage, decode: string -> UseAuth.TokenPayload, now: int)
    ensures RestoredRole(HandleLogout(st, storage).storage, decode, now).None?
    ensures UserManagement !in MenuItems(RestoredRole(HandleLogout(st, storage).storage, decode, now))
  {
  }
}

=== FILE: browser.dfy ===
/** Browser services as values: `localStorage`, and the constraint check a
    form runs before it lets its `submit` event reach the page's handler. */
module Browser {
  import opened Wrappers
  import Js

  /** Stored text by key. */
  type Storage = map<string, string>

  /** `localStorage.getItem(key)`: the stored text, or `null`. */
  function GetItem(storage: Storage, key: string): (r: Option<string>)
    ensures r.Some? <==> key in storage
    ensures r.Some? ==> r.value == storage[key]
  {
    if key in storage then Some(storage[key]) else None
  }

  /** A `getItem` result's truthiness: `null` and the empty string are falsy. */
  predicate Present(item: Option<string>)
  {
    item.Some? && item.value != ""
  }

  // ---------------------------------------------------------------------------
  // Constraint validation of a <form>. A form whose controls fail these checks
  // never fires `submit`, so its handler sends nothing. Buttons outside a form
  // (the service and task dialogs) are not checked at all.

  /** A `required` text or password input passes when its value is not empty. */
  predicate Filled(value: string)
  {
    value != ""
  }

  /** A `required` select whose first option is the placeholder `""` passes
      when its value is one of the other options' values. A value that names
      no option leaves the placeholder selected, which fails as well. */
  predicate SelectFilled(options: seq<string>, value: string)
  {
    value != "" && value in options
  }

  /** A character allowed before the `@` of a valid e-mail address. */
  predicate IsLocalChar(c: char)
  {
    IsLetDig(c) || c in ".!#$%&'*+/=?^_`{|}~-"
  }

  /** An ASCII letter or digit. */
  predicate IsLetDig(c: char)
  {
    'a' <= c <= 'z' || 'A' <= c <= 'Z' || '0' <= c <= '9'
  }

  /** A domain label: 1 to 63 letters, digits and hyphens, starting and ending with a letter or digit. */
  predicate IsLabel(s: string)
  {
    1 <= |s| <= 63 && IsLetDig(s[0]) && IsLetDig(s[|s| - 1])
    && forall i :: 0 <= i < |s| ==> IsLetDig(s[i]) || s[i] == '-'
  }

  /** A valid e-mail address as the HTML standard defines it for `type="email"`
      inputs: a non-empty local part, one `@`, and dot-separated labels. */
  predicate ValidEmail(s: string)
  {
    var parts := Js.Split(s, '@');
    && |parts| == 2
    && |parts[0]| >= 1 && (forall i :: 0 <= i < |parts[0]| ==> IsLocalChar(parts[0][i]))
    && (forall part :: part in Js.Split(parts[1], '.') ==> IsLabel(part))
  }

  /** Text without an `@`, the empty value among it, is never a valid address. */
  lemma {:induction false} EmailNeedsAt(s: string)
    requires '@' !in s
    ensures !ValidEmail(s)
  {
    Js.SplitNoSeparator(s, '@');
  }

  /** A non-empty local part, `@`, and one label make a valid address. */
  lemma {:induction false} SingleLabelAddressValid(local: string, domain: string)
    requires |local| >= 1 && forall i :: 0 <= i < |local| ==> IsLocalChar(local[i])
    requires IsLabel(domain)
    ensures ValidEmail(local + "@" + domain)
  {
    assert '@' !in local by {
      forall i | 0 <= i < |local| ensures local[i] != '@' {
        assert IsLocalChar(local[i]);
      }
    }
    assert '@' !in domain && '.' !in domain by {
      forall i | 0 <= i < |domain| ensures domain[i] != '@' && domain[i] != '.' {
        assert IsLetDig(domain[i]) || domain[i] == '-';
      }
    }
    assert local + "@" + domain == local + ['@'] + domain;
    Js.SplitAtSeparator(local, '@', domain);
    Js.SplitNoSeparator(domain, '@');
    Js.SplitNoSeparator(domain, '.');
  }
}

=== FILE: catalog.dfy ===
/** The category / sub-category shape several screens load from `/category`:
    a category carries its sub-categories nested inside it. */
module Catalog {
  import opened Wrappers
  import opened Js
  import Seqs

  datatype SubCategory = SubCategory(id: int, subCategoryName: string)

  datatype Category = Category(id: int, categoryName: string, subCategories: seq<SubCategory>)

  /** No two loaded categories share an id. */
  ghost predicate UniqueIds(categories: seq<Category>)
  {
    forall i, j :: 0 <= i < j < |categories| ==> categories[i].id != categories[j].id
  }

  /** The category at position `i` is the first whose decimal id is `key`. */
  ghost predicate FirstWithIdText(categories: seq<Category>, key: string, i: int)
    requires 0 <= i < |categories|
  {
    IntToString(categories[i].id) == key && forall j :: 0 <= j < i ==> IntToString(categories[j].id) != key
  }

  /** `categories.find(cat => cat.id.toString() === key)`: the first category
      whose id, written in decimal, is the select's value `key`. */
  function FindByIdText(categories: seq<Category>, key: string): (r: Option<Category>)
    ensures r.None? <==> forall i :: 0 <= i < |categories| ==> IntToString(categories[i].id) != key
    ensures forall i :: 0 <= i < |categories| && FirstWithIdText(categories, key, i) ==> r == Some(categories[i])
    ensures r.Some? ==> exists i :: 0 <= i < |categories| && categories[i] == r.value && IntToString(r.value.id) == key
  {
    match Seqs.FindIndex(categories, (c: Category) => IntToString(c.id) == key)
    case None => None
    case Some(k) =>
      FirstIsUnique(categories, key, k);
      Some(categories[k])
  }

  /** Only one position can be the first match. */
  lemma FirstIsUnique(categories: seq<Category>, key: string, k: int)
    requires 0 <= k < |categories| && FirstWithIdText(categories, key, k)
    ensures forall i :: 0 <= i < |categories| && FirstWithIdText(categories, key, i) ==> i == k
  {
  }

  /** The child options for the select value `key`: the first matching
      category's sub-categories, or none at all when no category matches. */
  function SubCategoriesFor(categories: seq<Category>, key: string): (r: seq<SubCategory>)
    ensures (forall i :: 0 <= i < |categories| ==> IntToString(categories[i].id) != key) ==> r == []
    ensures forall i :: 0 <= i < |categories| && FirstWithIdText(categories, key, i) ==> r == categories[i].subCategories
    ensures (exists i :: 0 <= i < |categories| && IntToString(categories[i].id) == key) ==>
              exists i :: 0 <= i < |categories| && IntToString(categories[i].id) == key && r == categories[i].subCategories
  {
    match FindByIdText(categories, key)
    case Some(c) => c.subCategories
    case None => []
  }

  /** The values of the options a select renders for the loaded categories, in order. */
  function CategoryOptionValues(categories: seq<Category>): (r: seq<string>)
    ensures |r| == |categories|
    ensures forall i :: 0 <= i < |categories| ==> r[i] == IntToString(categories[i].id)
  {
    Seqs.Map(categories, (c: Category) => IntToString(c.id))
  }

  /** The values of the options a select renders for the offered sub-categories, in order. */
  function SubCategoryOptionValues(subs: seq<SubCategory>): (r: seq<string>)
    ensures |r| == |subs|
    ensures forall i :: 0 <= i < |subs| ==> r[i] == IntToString(subs[i].id)
  {
    Seqs.Map(subs, (s: SubCategory) => IntToString(s.id))
  }

  /** Choosing the option of the loaded category at position `i` offers
      exactly that category's sub-categories, when ids are unique. */
  lemma SubCategoriesForOption(categories: seq<Category>, i: int)
    requires UniqueIds(categories)
    requires 0 <= i < |categories|
    ensures SubCategoriesFor(categories, IntToString(categories[i].id)) == categories[i].subCategories
  {
    var key := IntToString(categories[i].id);
    var r := FindByIdText(categories, key);
    var k :| 0 <= k < |categories| && categories[k] == r.value && IntToString(r.value.id) == key;
    IntToStringInjective(categories[k].id, categories[i].id);
  }

  /** The placeholder option (value `""`) never matches a category, so it offers no sub-categories. */
  lemma SubCategoriesForPlaceholder(categories: seq<Category>)
    ensures SubCategoriesFor(categories, "") == []
  {
  }
}

=== FILE: category_table.dfy ===
/** The category screen's edit dialog: the prefill of the form and the plan of
    requests that saving it sends. The dialog edits a category's name and,
    as one comma-separated text, the names of its sub-categories; saving lines
    the edited names up by position against the stored sub-categories. */
module CategoryTable {
  import opened Wrappers
  import opened Js
  import opened Http
  import opened Catalog
  import Seqs

  /** The edit dialog's two text fields. */
  datatype EditForm = EditForm(categoryName: string, subCategoryName: string)

  function SubCategoryNames(subs: seq<SubCategory>): (r: seq<string>)
    ensures |r| == |subs|
    ensures forall i :: 0 <= i < |subs| ==> r[i] == subs[i].subCategoryName
  {
    Seqs.Map(subs, (s: SubCategory) => s.subCategoryName)
  }

  /** The stored sub-category names joined with ", ": what the dialog shows. */
  function JoinedNames(c: Category): string
  {
    Join(SubCategoryNames(c.subCategories), ", ")
  }

  /** The Edit button: the form starts from the category's name and its joined sub-category names. */
  function EditPrefill(c: Category): (f: EditForm)
    ensures f.categoryName == c.categoryName
    ensures f.subCategoryName == JoinedNames(c)
  {
    EditForm(c.categoryName, JoinedNames(c))
  }

  /** The edited text split on every comma, each piece trimmed. */
  function ParseNames(text: string): (r: seq<string>)
    ensures |r| == 1 + Occurrences(text, ',')
    ensures forall i :: 0 <= i < |r| ==> IsTrimmed(r[i]) && ',' !in r[i]
    ensures text == "" ==> r == [""]
  {
    var pieces := Split(text, ',');
    var r := Seqs.Map(pieces, Trim);
    assert forall i :: 0 <= i < |r| ==> ',' !in r[i] by {
      forall i | 0 <= i < |r| ensures ',' !in r[i] {
        TrimIsInfix(pieces[i]);
      }
    }
    r
  }

  /** Whatever `trim` keeps comes from its argument. */
  lemma {:induction false} TrimIsInfix(s: string)
    ensures forall c :: c in Trim(s) ==> c in s
  {
    TrimStartIsSuffix(s);
    TrimEndIsPrefix(TrimStart(s));
  }

  lemma TrimStartIsSuffix(s: string)
    ensures forall c :: c in TrimStart(s) ==> c in s
  {
    var r := TrimStart(s);
    assert r == s[|s| - |r|..];
  }

  lemma TrimEndIsPrefix(s: string)
    ensures forall c :: c in TrimEnd(s) ==> c in s
  {
    var r := TrimEnd(s);
    assert r == s[..|r|];
  }

  function CategoryPath(id: int): string
  {
    ItemPath("/category", id)
  }

  function SubCategoryPath(id: int): string
  {
    ItemPath("/subCategory", id)
  }

  /** The request renaming category `c` to `name`. */
  function RenameRequest(c: Category, name: string): Request
  {
    Put(CategoryPath(c.id), map["categoryName" := JStr(name)])
  }

  /** The request for edited name `name` at position `i`: a PUT renaming the
      stored sub-category at that position, or a POST creating one under `c`
      when the stored list is shorter. */
  function UpsertRequest(c: Category, i: nat, name: string): Request
  {
    if i < |c.subCategories| then
      Put(SubCategoryPath(c.subCategories[i].id), map["subCategoryName" := JStr(name)])
    else
      Post("/subCategory", map["categoryId" := JNum(Int(c.id)), "subCategoryName" := JStr(name)])
  }

  /** The requests for the edited names `names`, placed from position `from` on. */
  function Upserts(c: Category, names: seq<string>, from: nat): seq<Request>
  {
    seq(|names|, i requires 0 <= i < |names| => UpsertRequest(c, from + i, names[i]))
  }

  /** Dropping the first upsert leaves the upserts of the remaining names, one position on. */
  lemma UpsertsTail(c: Category, names: seq<string>, from: nat)
    requires |names| > 0
    ensures Upserts(c, names, from) == [UpsertRequest(c, from, names[0])] + Upserts(c, names[1..], from + 1)
  {
    var a := Upserts(c, names, from);
    var b := [UpsertRequest(c, from, names[0])] + Upserts(c, names[1..], from + 1);
    assert |a| == |b|;
    forall i | 0 <= i < |a| ensures a[i] == b[i] {
      if i > 0 {
        assert b[i] == Upserts(c, names[1..], from + 1)[i - 1];
        assert names[1..][i - 1] == names[i];
      }
    }
  }

  function Deletes(subs: seq<SubCategory>): seq<Request>
  {
    if |subs| == 0 then [] else [Delete(SubCategoryPath(subs[0].id))] + Deletes(subs[1..])
  }

  /** The sub-category part of the plan for the edited names `names`: one
      request per edited name, then a DELETE for every stored entry past the
      last edited position. */
  function SubCategoryPlan(c: Category, names: seq<string>): (plan: seq<Request>)
    ensures var m := |names|; var s := |c.subCategories|;
      && |plan| == m + (if s > m then s - m else 0)
      && (forall i :: 0 <= i < m ==> plan[i] == UpsertRequest(c, i, names[i]))
      && (forall j :: m <= j < s ==> plan[j] == Delete(SubCategoryPath(c.subCategories[j].id)))
  {
    var dels := if |c.subCategories| > |names| then Deletes(c.subCategories[|names|..]) else [];
    PlanAt(Upserts(c, names, 0), dels, c, names);
    Upserts(c, names, 0) + dels
  }

  /** The upserts followed by the deletions, position by position. */
  lemma PlanAt(ups: seq<Request>, dels: seq<Request>, c: Category, names: seq<string>)
    requires ups == Upserts(c, names, 0)
    requires dels == if |c.subCategories| > |names| then Deletes(c.subCategories[|names|..]) else []
    ensures var m := |names|; var s := |c.subCategories|;
      && |ups + dels| == m + (if s > m then s - m else 0)
      && (forall i :: 0 <= i < m ==> (ups + dels)[i] == UpsertRequest(c, i, names[i]))
      && (forall j :: m <= j < s ==> (ups + dels)[j] == Delete(SubCategoryPath(c.subCategories[j].id)))
  {
    PlanAtDeletes(ups, dels, c, names);
  }

  lemma PlanAtDeletes(ups: seq<Request>, dels: seq<Request>, c: Category, names: seq<string>)
    requires |ups| == |names|
    requires dels == if |c.subCategories| > |names| then Deletes(c.subCategories[|names|..]) else []
    ensures |ups + dels| == |names| + (if |c.subCategories| > |names| then |c.subCategories| - |names| else 0)
    ensures forall j :: |names| <= j < |c.subCategories| ==> (ups + dels)[j] == Delete(SubCategoryPath(c.subCategories[j].id))
  {
    DeletesAt(c.subCategories, |names|);
    forall j | |names| <= j < |c.subCategories|
      ensures (ups + dels)[j] == Delete(SubCategoryPath(c.subCategories[j].id))
    {
      assert (ups + dels)[j] == dels[j - |names|];
    }
  }

  /** `handleUpdate`: the requests saving the edit dialog sends, with no
      category selected nothing at all. The rename comes first, then one
      request per edited name in order, then the deletions. */
  function PlanUpdate(selected: Option<Category>, form: EditForm): (plan: seq<Request>)
    ensures selected.None? ==> plan == []
    ensures selected.Some? ==>
      var c := selected.value;
      var k := if form.categoryName != c.categoryName then 1 else 0;
      && |plan| >= k
      && (k == 1 ==> plan[0] == RenameRequest(c, form.categoryName))
      && (form.subCategoryName == JoinedNames(c) ==> |plan| == k)
      && (form.subCategoryName != JoinedNames(c) ==> plan[k..] == SubCategoryPlan(c, ParseNames(form.subCategoryName)))
  {
    match selected
    case None => []
    case Some(c) =>
      var rename := if form.categoryName != c.categoryName then [RenameRequest(c, form.categoryName)] else [];
      if form.subCategoryName == JoinedNames(c) then rename
      else
        var plan := rename + SubCategoryPlan(c, ParseNames(form.subCategoryName));
        assert plan[|rename|..] == SubCategoryPlan(c, ParseNames(form.subCategoryName));
        plan
  }

  /** Position `j` of the deletions removes the stored entry at `m + j`. */
  lemma {:induction false} DeletesAt(subs: seq<SubCategory>, m: nat)
    ensures m < |subs| ==> |Deletes(subs[m..])| == |subs| - m
    ensures m < |subs| ==> forall j :: m <= j < |subs| ==> Deletes(subs[m..])[j - m] == Delete(SubCategoryPath(subs[j].id))
  {
    if m < |subs| {
      DeletesShape(subs[m..]);
    }
  }

  lemma {:induction false} DeletesShape(subs: seq<SubCategory>)
    ensures |Deletes(subs)| == |subs|
    ensures forall j :: 0 <= j < |subs| ==> Deletes(subs)[j] == Delete(SubCategoryPath(subs[j].id))
  {
    if |subs| > 0 {
      DeletesShape(subs[1..]);
    }
  }

  // ---------------------------------------------------------------------------
  // Properties of the plan

  datatype Method = GET | POST | PUT | DELETE

  function MethodOf(r: Request): Method
  {
    match r
    case Get(_) => GET
    case Post(_, _) => POST
    case Put(_, _) => PUT
    case Delete(_) => DELETE
  }

  /** How many requests of the plan use method `m`. */
  function CountOf(plan: seq<Request>, m: Method): nat
  {
    if |plan| == 0 then 0 else (if MethodOf(plan[0]) == m then 1 else 0) + CountOf(plan[1..], m)
  }

  lemma {:induction false} CountOfAppend(a: seq<Request>, b: seq<Request>, m: Method)
    ensures CountOf(a + b, m) == CountOf(a, m) + CountOf(b, m)
  {
    if |a| > 0 {
      assert (a + b)[1..] == a[1..] + b;
      CountOfAppend(a[1..], b, m);
    } else {
      assert a + b == b;
    }
  }

  lemma {:induction false} UpsertsCount(c: Category, names: seq<string>, from: nat)
    ensures var s := |c.subCategories|;
      var puts := if from >= s then 0 else if from + |names| <= s then |names| else s - from;
      && CountOf(Upserts(c, names, from), PUT) == puts
      && CountOf(Upserts(c, names, from), POST) == |names| - puts
      && CountOf(Upserts(c, names, from), DELETE) == 0
    decreases |names|
  {
    if |names| > 0 {
      UpsertsTail(c, names, from);
      var rest := Upserts(c, names[1..], from + 1);
      assert ([UpsertRequest(c, from, names[0])] + rest)[1..] == rest;
      UpsertsCount(c, names[1..], from + 1);
    }
  }

  lemma {:induction false} DeletesCount(subs: seq<SubCategory>)
    ensures CountOf(Deletes(subs), DELETE) == |subs|
    ensures CountOf(Deletes(subs), PUT) == 0 && CountOf(Deletes(subs), POST) == 0
  {
    if |subs| > 0 {
      DeletesCount(subs[1..]);
    }
  }

  /** With `m` edited names against `s` stored sub-categories, the plan has
      min(m, s) PUTs, max(0, m - s) POSTs and max(0, s - m) DELETEs: every
      edited name gets exactly one PUT or POST. */
  lemma SubCategoryPlanCounts(c: Category, names: seq<string>)
    ensures var m := |names|; var s := |c.subCategories|;
      var plan := SubCategoryPlan(c, names);
      && CountOf(plan, PUT) == (if m <= s then m else s)
      && CountOf(plan, POST) == (if m > s then m - s else 0)
      && CountOf(plan, PUT) + CountOf(plan, POST) == m
      && CountOf(plan, DELETE) == (if s > m then s - m else 0)
  {
    var m := |names|;
    var s := |c.subCategories|;
    var dels := if s > m then Deletes(c.subCategories[m..]) else [];
    UpsertsCount(c, names, 0);
    if s > m {
      DeletesCount(c.subCategories[m..]);
    }
    CountOfAppend(Upserts(c, names, 0), dels, PUT);
    CountOfAppend(Upserts(c, names, 0), dels, POST);
    CountOfAppend(Upserts(c, names, 0), dels, DELETE);
  }

  /** Only the rename request is a request to the category's own path. */
  predicate RenamesCategory(r: Request, c: Category)
  {
    r.Put? && r.path == CategoryPath(c.id)
  }

  lemma SubCategoryPlanNeverRenames(c: Category, names: seq<string>)
    ensures forall i :: 0 <= i < |SubCategoryPlan(c, names)| ==> !RenamesCategory(SubCategoryPlan(c, names)[i], c)
  {
    var plan := SubCategoryPlan(c, names);
    forall i | 0 <= i < |plan| ensures !RenamesCategory(plan[i], c) {
      assert CategoryPath(c.id)[1] == 'c';
      if i < |names| && i < |c.subCategories| {
        assert SubCategoryPath(c.subCategories[i].id)[1] == 's';
      }
    }
  }

  /** A category rename is planned if and only if the edited name differs from the stored one. */
  lemma {:induction false} RenamePlannedIff(c: Category, form: EditForm)
    ensures (exists i :: 0 <= i < |PlanUpdate(Some(c), form)| && RenamesCategory(PlanUpdate(Some(c), form)[i], c))
            <==> form.categoryName != c.categoryName
  {
    var plan := PlanUpdate(Some(c), form);
    if form.categoryName != c.categoryName {
      assert RenamesCategory(plan[0], c);
    } else {
      if form.subCategoryName != JoinedNames(c) {
        var sub := SubCategoryPlan(c, ParseNames(form.subCategoryName));
        assert plan == plan[0..] == sub;
        SubCategoryPlanNeverRenames(c, ParseNames(form.subCategoryName));
      } else {
        assert |plan| == 0;
      }
    }
  }

  /** Saving the dialog exactly as the Edit button filled it plans no request. */
  lemma UntouchedFormPlansNothing(c: Category)
    ensures PlanUpdate(Some(c), EditPrefill(c)) == []
  {
  }

  /** Stored names that hold no comma and no surrounding whitespace come back
      unchanged when the prefilled text is parsed again. */
  lemma {:induction false} ReparsePrefill(c: Category)
    requires |c.subCategories| >= 1
    requires forall i :: 0 <= i < |c.subCategories| ==>
      ',' !in c.subCategories[i].subCategoryName && IsTrimmed(c.subCategories[i].subCategoryName)
    ensures ParseNames(JoinedNames(c)) == SubCategoryNames(c.subCategories)
  {
    var names := SubCategoryNames(c.subCategories);
    var text := JoinedNames(c);
    assert text == Join(names, [','] + " ") by {
      assert [','] + " " == ", ";
    }
    SplitJoin(names, ',', " ");
    var pieces := Split(text, ',');
    assert |pieces| == |names|;
    forall i | 0 <= i < |names| ensures ParseNames(text)[i] == names[i] {
      ParseNamesAt(text, i);
      PieceTrimsToName(names[i], pieces[i], i == 0);
    }
  }

  lemma PieceTrimsToName(name: string, piece: string, first: bool)
    requires IsTrimmed(name)
    requires piece == if first then name else " " + name
    ensures Trim(piece) == name
  {
    if first {
      TrimPadded("", name, "");
      assert "" + name + "" == name;
    } else {
      TrimPadded(" ", name, "");
      assert " " + name + "" == " " + name;
    }
  }

  lemma ParseNamesAt(text: string, i: int)
    requires 0 <= i < |Split(text, ',')|
    ensures |ParseNames(text)| == |Split(text, ',')|
    ensures ParseNames(text)[i] == Trim(Split(text, ',')[i])
  {
  }

  /** An edit that only reformats the text (the names parse to the stored ones)
      plans one PUT per stored sub-category carrying its own name, and nothing else. */
  lemma ReformattedNamesRewriteInPlace(c: Category, form: EditForm)
    requires form.categoryName == c.categoryName
    requires form.subCategoryName != JoinedNames(c)
    requires ParseNames(form.subCategoryName) == SubCategoryNames(c.subCategories)
    ensures |PlanUpdate(Some(c), form)| == |c.subCategories|
    ensures forall i :: 0 <= i < |c.subCategories| ==>
      PlanUpdate(Some(c), form)[i] == Put(SubCategoryPath(c.subCategories[i].id), map["subCategoryName" := JStr(c.subCategories[i].subCategoryName)])
  {
    var plan := PlanUpdate(Some(c), form);
    assert plan[0..] == plan;
  }
}

=== FILE: create_product_modal.dfy ===
/** The product create dialog. Its category and sub-category selects are
    guarded: a value that names no loaded entry is ignored. Its four text
    inputs and both selects are `required`, so the browser holds the submit
    back until they are filled. */
module CreateProductModal {
  import opened Wrappers
  import opened Js
  import opened Http
  import opened Catalog
  import opened Browser
  import Seqs

  datatype CreateState = CreateState(
    productId: string, productName: string, productDescription: string, hsn: string,
    categoryId: string, subCategoryId: string,
    categoryName: string, subCategoryName: string,
    categories: seq<Category>,
    subCategories: seq<SubCategory>)

  /** The first loaded category whose id `parseInt(value, 10)` gives, if any. */
  function CategoryNamed(categories: seq<Category>, value: string): (r: Option<Category>)
    ensures r.None? <==> forall i :: 0 <= i < |categories| ==> Int(categories[i].id) != ParseInt(value)
    ensures r.Some? ==> exists i :: 0 <= i < |categories| && categories[i] == r.value && Int(r.value.id) == ParseInt(value)
                                   && forall j :: 0 <= j < i ==> Int(categories[j].id) != ParseInt(value)
  {
    Seqs.Find(categories, (c: Category) => Int(c.id) == ParseInt(value))
  }

  /** `handleCategoryChange`: a value naming no loaded category (the
      placeholder among them) changes nothing; otherwise the category is set
      with its name, the sub-category is cleared and its options reloaded. */
  function CategoryChanged(st: CreateState, value: string): (r: CreateState)
    ensures CategoryNamed(st.categories, value).None? ==> r == st
    ensures CategoryNamed(st.categories, value).Some? ==>
      && r.categoryId == value
      && r.categoryName == CategoryNamed(st.categories, value).value.categoryName
      && r.subCategoryId == "" && r.subCategoryName == ""
      && r.subCategories == SubCategoriesFor(st.categories, value)
      && r == st.(categoryId := value, categoryName := r.categoryName, subCategoryId := "",
                  subCategoryName := "", subCategories := r.subCategories)
  {
    match CategoryNamed(st.categories, value)
    case None => st
    case Some(c) =>
      st.(categoryId := value, categoryName := c.categoryName, subCategoryId := "", subCategoryName := "",
          subCategories := SubCategoriesFor(st.categories, value))
  }

  /** `handleSubCategoryChange`: takes effect only for a value naming one of
      the current options, and then records both its id and the name of the
      first option with that id. */
  function SubCategoryChanged(st: CreateState, value: string): (r: CreateState)
    ensures (forall i :: 0 <= i < |st.subCategories| ==> Int(st.subCategories[i].id) != ParseInt(value)) ==> r == st
    ensures (exists i :: 0 <= i < |st.subCategories| && Int(st.subCategories[i].id) == ParseInt(value)) ==>
      && r.subCategoryId == value
      && (exists i :: 0 <= i < |st.subCategories| && Int(st.subCategories[i].id) == ParseInt(value)
                      && (forall j :: 0 <= j < i ==> Int(st.subCategories[j].id) != ParseInt(value))
                      && r.subCategoryName == st.subCategories[i].subCategoryName)
      && r == st.(subCategoryId := value, subCategoryName := r.subCategoryName)
  {
    match Seqs.Find(st.subCategories, (s: SubCategory) => Int(s.id) == ParseInt(value))
    case None => st
    case Some(s) => st.(subCategoryId := value, subCategoryName := s.subCategoryName)
  }

  /** The POST body: the four text fields, and both ids through `parseInt(_, 10)`. */
  function Payload(st: CreateState): (b: Body)
    ensures b.Keys == {"productId", "productName", "productDescription", "HSN", "categoryId", "subCategoryId"}
    ensures b["productId"] == JStr(st.productId) && b["productName"] == JStr(st.productName)
    ensures b["productDescription"] == JStr(st.productDescription) && b["HSN"] == JStr(st.hsn)
    ensures b["categoryId"] == JNum(ParseInt(st.categoryId))
    ensures b["subCategoryId"] == JNum(ParseInt(st.subCategoryId))
  {
    map[
      "productId" := JStr(st.productId),
      "productName" := JStr(st.productName),
      "productDescription" := JStr(st.productDescription),
      "HSN" := JStr(st.hsn),
      "categoryId" := JNum(ParseInt(st.categoryId)),
      "subCategoryId" := JNum(ParseInt(st.subCategoryId))]
  }

  /** The form's constraint check: the four text inputs are filled and both
      selects hold one of their options. */
  predicate Submittable(st: CreateState)
  {
    Filled(st.productId) && Filled(st.productName) && Filled(st.productDescription) && Filled(st.hsn)
    && SelectFilled(CategoryOptionValues(st.categories), st.categoryId)
    && SelectFilled(SubCategoryOptionValues(st.subCategories), st.subCategoryId)
  }

  /** `handleSubmit`: once the form passes its check, a POST of the payload; otherwise nothing. */
  function Submit(st: CreateState): (r: Option<Request>)
    ensures r.Some? <==> Submittable(st)
    ensures r.Some? ==> r.value.Post? && r.value.path == "/products" && r.value.body == Payload(st)
  {
    if Submittable(st) then Some(Post("/products", Payload(st))) else None
  }

  /** The selected sub-category is empty or names one of the offered options. */
  predicate SelectionConsistent(st: CreateState)
  {
    st.subCategoryId == ""
    || exists i :: 0 <= i < |st.subCategories| && Int(st.subCategories[i].id) == ParseInt(st.subCategoryId)
  }

  /** Both guarded handlers keep the selection consistent with the options. */
  lemma GuardedChangesKeepSelectionConsistent(st: CreateState, value: string)
    requires SelectionConsistent(st)
    ensures SelectionConsistent(CategoryChanged(st, value))
    ensures SelectionConsistent(SubCategoryChanged(st, value))
  {
  }

  /** Choosing the placeholder category changes nothing. */
  lemma PlaceholderCategoryIgnored(st: CreateState)
    ensures CategoryChanged(st, "") == st
  {
  }

  /** Choosing the option of the loaded category at position `i` selects it,
      with its name, and offers its sub-categories. */
  lemma CategoryOptionSelects(st: CreateState, i: int)
    requires UniqueIds(st.categories) && 0 <= i < |st.categories|
    ensures var r := CategoryChanged(st, IntToString(st.categories[i].id));
      && r.categoryId == IntToString(st.categories[i].id)
      && r.categoryName == st.categories[i].categoryName
      && r.subCategories == st.categories[i].subCategories
      && ParseInt(r.categoryId) == Int(st.categories[i].id)
  {
    var key := IntToString(st.categories[i].id);
    ParseIntOfIntToString(st.categories[i].id);
    SubCategoriesForOption(st.categories, i);
    var found := CategoryNamed(st.categories, key);
    assert found.Some?;
    var k :| 0 <= k < |st.categories| && st.categories[k] == found.value && Int(found.value.id) == ParseInt(key);
    assert k == i;
  }

  /** Choosing a category clears the sub-category, so the submit waits until one is chosen. */
  lemma CategoryChangeAwaitsSubCategory(st: CreateState, value: string)
    requires CategoryNamed(st.categories, value).Some?
    ensures Submit(CategoryChanged(st, value)).None?
  {
  }

  /** Filling the text inputs, choosing the option of category `i` and then
      the option of its sub-category `j` submits those two ids. */
  lemma ChosenOptionsAreSent(st: CreateState, i: int, j: int)
    requires UniqueIds(st.categories) && 0 <= i < |st.categories|
    requires 0 <= j < |st.categories[i].subCategories|
    requires Filled(st.productId) && Filled(st.productName) && Filled(st.productDescription) && Filled(st.hsn)
    ensures var sub := st.categories[i].subCategories[j];
      var r := Submit(SubCategoryChanged(CategoryChanged(st, IntToString(st.categories[i].id)), IntToString(sub.id)));
      && r.Some?
      && r.value.body["categoryId"] == JNum(Int(st.categories[i].id))
      && r.value.body["subCategoryId"] == JNum(Int(sub.id))
  {
    var sub := st.categories[i].subCategories[j];
    var a := CategoryChanged(st, IntToString(st.categories[i].id));
    CategoryOptionSelects(st, i);
    ParseIntOfIntToString(sub.id);
    assert Int(a.subCategories[j].id) == ParseInt(IntToString(sub.id));
    var b := SubCategoryChanged(a, IntToString(sub.id));
    assert b.subCategoryId == IntToString(sub.id) && b.categoryId == a.categoryId && b.subCategories == a.subCategories;
    assert CategoryOptionValues(st.categories)[i] == b.categoryId;
    assert SubCategoryOptionValues(b.subCategories)[j] == b.subCategoryId;
    assert Submittable(b);
  }
}

=== FILE: department_table.dfy ===
/** The department screen: one dialog that adds or edits a department. */
module DepartmentTable {
  import opened Wrappers
  import opened Js
  import opened Http

  datatype Department = Department(id: int, departmentName: string)

  const EmptyForm := Department(0, "")

  datatype DepartmentState = DepartmentState(form: Department, editing: bool, modalOpen: bool)

  function DepartmentBody(d: Department): (b: Body)
    ensures b.Keys == {"id", "departmentName"}
    ensures b["id"] == JNum(Int(d.id)) && b["departmentName"] == JStr(d.departmentName)
  {
    map["id" := JNum(Int(d.id)), "departmentName" := JStr(d.departmentName)]
  }

  /** `handleAdd`: an empty name sends nothing; otherwise POST the form and
      close the dialog when that succeeded. */
  function Add(st: DepartmentState, succeeded: bool): (r: Step<DepartmentState>)
    ensures st.form.departmentName == "" ==> r == Step(st, [])
    ensures st.form.departmentName != "" ==> r.requests == [Post("/departments", DepartmentBody(st.form))]
    ensures st.form.departmentName != "" ==> r.state == (if succeeded then st.(modalOpen := false) else st)
  {
    if st.form.departmentName == "" then Step(st, [])
    else Step(if succeeded then st.(modalOpen := false) else st, [Post("/departments", DepartmentBody(st.form))])
  }

  /** `handleUpdate`: an empty name sends nothing; otherwise PUT the form to
      `/departments/{form.id}` and close the dialog when that succeeded. */
  function Update(st: DepartmentState, succeeded: bool): (r: Step<DepartmentState>)
    ensures st.form.departmentName == "" ==> r == Step(st, [])
    ensures st.form.departmentName != "" ==>
      r.requests == [Put(ItemPath("/departments", st.form.id), DepartmentBody(st.form))]
    ensures st.form.departmentName != "" ==> r.state == (if succeeded then st.(modalOpen := false) else st)
  {
    if st.form.departmentName == "" then Step(st, [])
    else Step(if succeeded then st.(modalOpen := false) else st,
              [Put(ItemPath("/departments", st.form.id), DepartmentBody(st.form))])
  }

  /** The Save button: update while editing, add otherwise. */
  function Save(st: DepartmentState, succeeded: bool): (r: Step<DepartmentState>)
    ensures st.form.departmentName == "" ==> r == Step(st, [])
    ensures st.form.departmentName != "" && st.editing ==>
      r.requests == [Put(ItemPath("/departments", st.form.id), DepartmentBody(st.form))]
    ensures st.form.departmentName != "" && !st.editing ==>
      r.requests == [Post("/departments", DepartmentBody(st.form))]
  {
    if st.editing then Update(st, succeeded) else Add(st, succeeded)
  }

  /** `openModal(department?)`: edit a copy of the department, or add from an empty form. */
  function OpenModal(st: DepartmentState, d: Option<Department>): (r: DepartmentState)
    ensures r.modalOpen
    ensures d.Some? ==> r.editing && r.form == d.value
    ensures d.None? ==> !r.editing && r.form == EmptyForm
  {
    match d
    case Some(dep) => DepartmentState(dep, true, true)
    case None => DepartmentState(EmptyForm, false, true)
  }

  /** `closeModal`: close the dialog and empty the form; the editing flag stays. */
  function CloseModal(st: DepartmentState): (r: DepartmentState)
    ensures !r.modalOpen && r.form == EmptyForm && r.editing == st.editing
  {
    st.(modalOpen := false, form := EmptyForm)
  }

  /** The name input. */
  function NameTyped(st: DepartmentState, name: string): (r: DepartmentState)
    ensures r.form == st.form.(departmentName := name)
    ensures r == st.(form := r.form)
  {
    st.(form := st.form.(departmentName := name))
  }

  /** Editing an existing department and saving it with a name PUTs to that department's own path. */
  lemma EditSavesToItsOwnPath(st: DepartmentState, d: Department, name: string, succeeded: bool)
    requires name != ""
    ensures Save(NameTyped(OpenModal(st, Some(d)), name), succeeded).requests ==
      [Put(ItemPath("/departments", d.id), DepartmentBody(d.(departmentName := name)))]
  {
  }

  /** Clearing the name blocks saving in either mode. */
  lemma EmptyNameBlocksSave(st: DepartmentState, succeeded: bool)
    ensures Save(NameTyped(st, ""), succeeded).requests == []
  {
  }
}

=== FILE: http.dfy ===
/** Requests as data: what a handler would send, not the sending of it. */
module Http {
  import opened Wrappers
  import opened Js

  /** A JSON value as `JSON.stringify` writes it; a NaN number goes out as `null`. */
  datatype Json = JNum(n: Num) | JStr(s: string) | JNums(ns: seq<int>)

  /** A request body: a JSON object, property name to value (the order of
      properties carries no meaning for the server and is not modelled). */
  type Body = map<string, Json>

  /** An HTTP request against the API server, by path (the host is not modelled). */
  datatype Request =
    | Get(path: string)
    | Post(path: string, body: Body)
    | Put(path: string, body: Body)
    | Delete(path: string)

  /** A handler's effect: the component's next state and the requests it sends, in order. */
  datatype Step<S> = Step(state: S, requests: seq<Request>)

  /** `` `${base}/${id}` `` for a resource path and a numeric id. */
  function ItemPath(base: string, id: int): string
  {
    base + "/" + IntToString(id)
  }
}

=== FILE: js.dfy ===
/** The slice of JavaScript's string and number semantics that the console's
    handlers rely on: `trim`, `split`, `join`, `toString`, `parseInt(s, 10)`
    and `Number(s)` (also written `+s`). */
module Js {

  /** A JavaScript number as the console uses it: an integer or NaN. */
  datatype Num = Int(value: int) | NaN

  /** JavaScript truthiness of a number: `0` and `NaN` are falsy. */
  predicate Truthy(n: Num)
  {
    n.Int? && n.value != 0
  }

  /** The message of the TypeError that `x.toString()` throws when the
      property `x` read is missing (`undefined`), as V8 words it. */
  const UndefinedToStringMessage := "Cannot read properties of undefined (reading 'toString')"

  // ---------------------------------------------------------------------------
  // Whitespace and trim

  /** The whitespace characters `trim` strips (a fixed subset of the
      Unicode White_Space and line-terminator classes). */
  predicate IsWhitespace(c: char)
  {
    c == ' ' || c == '\t' || c == '\n' || c == '\r' || c == '\U{000B}' || c == '\U{000C}'
    || c == '\U{00A0}' || c == '\U{FEFF}' || c == '\U{2028}' || c == '\U{2029}'
  }

  predicate AllWhitespace(s: string)
  {
    forall i :: 0 <= i < |s| ==> IsWhitespace(s[i])
  }

  /** Neither end of `s` is whitespace. */
  predicate IsTrimmed(s: string)
  {
    |s| == 0 || (!IsWhitespace(s[0]) && !IsWhitespace(s[|s| - 1]))
  }

  /** Drops leading whitespace. */
  function TrimStart(s: string): (r: string)
    ensures |r| == 0 || !IsWhitespace(r[0])
    ensures |r| <= |s| && r == s[|s| - |r|..]
    ensures AllWhitespace(s[..|s| - |r|])
  {
    if |s| > 0 && IsWhitespace(s[0]) then
      var r := TrimStart(s[1..]);
      assert s[1..][..|s[1..]| - |r|] == s[1..|s| - |r|];
      r
    else s
  }

  /** Drops trailing whitespace. */
  function TrimEnd(s: string): (r: string)
    ensures |r| == 0 || !IsWhitespace(r[|r| - 1])
    ensures |r| <= |s| && r == s[..|r|]
    ensures AllWhitespace(s[|r|..])
  {
    if |s| > 0 && IsWhitespace(s[|s| - 1]) then
      var r := TrimEnd(s[..|s| - 1]);
      assert s[..|s| - 1][|r|..] + [s[|s| - 1]] == s[|r|..];
      r
    else s
  }

  /** `s.trim()`: `s` without its leading and trailing whitespace. */
  function Trim(s: string): (r: string)
    ensures IsTrimmed(r)
    ensures |r| <= |s|
  {
    var a := TrimStart(s);
    var r := TrimEnd(a);
    assert |r| == 0 || !IsWhitespace(r[0]) by {
      if |r| > 0 { assert r[0] == a[0]; }
    }
    r
  }

  /** Whitespace around an already trimmed string is exactly what `trim` removes. */
  lemma {:induction false} TrimPadded(lead: string, s: string, trail: string)
    requires AllWhitespace(lead) && AllWhitespace(trail) && IsTrimmed(s)
    ensures Trim(lead + s + trail) == s
  {
    assert lead + s + trail == lead + (s + trail);
    if |s| == 0 {
      assert s + trail == trail;
      TrimStartPadded(lead + trail, "");
      assert lead + trail + "" == lead + trail;
      assert AllWhitespace(lead + trail);
    } else {
      assert (s + trail)[0] == s[0];
      TrimStartPadded(lead, s + trail);
      TrimEndPadded(s, trail);
    }
  }

  lemma {:induction false} TrimStartPadded(lead: string, s: string)
    requires AllWhitespace(lead) && (|s| == 0 || !IsWhitespace(s[0]))
    ensures TrimStart(lead + s) == s
    decreases |lead|
  {
    if |lead| > 0 {
      assert (lead + s)[1..] == lead[1..] + s;
      TrimStartPadded(lead[1..], s);
    } else {
      assert lead + s == s;
    }
  }

  lemma {:induction false} TrimEndPadded(s: string, trail: string)
    requires AllWhitespace(trail) && (|s| == 0 || !IsWhitespace(s[|s| - 1]))
    ensures TrimEnd(s + trail) == s
    decreases |trail|
  {
    if |trail| > 0 {
      assert (s + trail)[..|s + trail| - 1] == s + trail[..|trail| - 1];
      TrimEndPadded(s, trail[..|trail| - 1]);
    } else {
      assert s + trail == s;
    }
  }

  // ---------------------------------------------------------------------------
  // split and join

  /** `s.split(sep)` for a one-character separator: the pieces between the
      occurrences of `sep`; the empty string splits into one empty piece. */
  function Split(s: string, sep: char): (r: seq<string>)
    ensures |r| >= 1
    ensures forall i :: 0 <= i < |r| ==> sep !in r[i]
    ensures |r| == 1 + Occurrences(s, sep)
  {
    if |s| == 0 then [""]
    else
      var rest := Split(s[1..], sep);
      if s[0] == sep then [""] + rest
      else [[s[0]] + rest[0]] + rest[1..]
  }

  /** The number of times `c` occurs in `s`. */
  function Occurrences(s: string, c: char): nat
  {
    if |s| == 0 then 0 else (if s[0] == c then 1 else 0) + Occurrences(s[1..], c)
  }

  /** `parts.join(sep)`; joining no parts gives the empty string. */
  function Join(parts: seq<string>, sep: string): string
  {
    if |parts| == 0 then ""
    else if |parts| == 1 then parts[0]
    else parts[0] + sep + Join(parts[1..], sep)
  }

  /** A string free of the separator splits into itself alone. */
  lemma {:induction false} SplitNoSeparator(s: string, sep: char)
    requires sep !in s
    ensures Split(s, sep) == [s]
  {
    if |s| > 0 {
      SplitNoSeparator(s[1..], sep);
      assert [s[0]] + s[1..] == s;
    }
  }

  /** Splitting at the first separator: the piece before it, then the split of the rest. */
  lemma {:induction false} SplitAtSeparator(a: string, sep: char, b: string)
    requires sep !in a
    ensures Split(a + [sep] + b, sep) == [a] + Split(b, sep)
    decreases |a|
  {
    var s := a + [sep] + b;
    if |a| == 0 {
      assert s[1..] == b;
    } else {
      assert s[1..] == a[1..] + [sep] + b;
      SplitAtSeparator(a[1..], sep, b);
      assert [a[0]] + a[1..] == a;
    }
  }

  /** Splitting the join of separator-free parts on that separator gives the
      parts back, with the separator's tail `pad` left in front of every part
      after the first. */
  lemma {:induction false} SplitJoin(parts: seq<string>, sep: char, pad: string)
    requires |parts| >= 1
    requires sep !in pad
    requires forall i :: 0 <= i < |parts| ==> sep !in parts[i]
    ensures |Split(Join(parts, [sep] + pad), sep)| == |parts|
    ensures Split(Join(parts, [sep] + pad), sep)[0] == parts[0]
    ensures forall i :: 1 <= i < |parts| ==> Split(Join(parts, [sep] + pad), sep)[i] == pad + parts[i]
  {
    if |parts| == 1 {
      SplitNoSeparator(parts[0], sep);
    } else {
      var rest := parts[1..];
      var tail := Join(rest, [sep] + pad);
      assert Join(parts, [sep] + pad) == parts[0] + [sep] + (pad + tail);
      SplitAtSeparator(parts[0], sep, pad + tail);
      SplitJoin(rest, sep, pad);
      SplitPrefixFirst(rest, sep, pad);
      var split := Split(Join(parts, [sep] + pad), sep);
      var inner := Split(tail, sep);
      assert split == [parts[0]] + ([pad + rest[0]] + inner[1..]);
      forall i | 1 <= i < |parts| ensures split[i] == pad + parts[i] {
        if i > 1 {
          assert split[i] == inner[i - 1] && rest[i - 1] == parts[i];
        }
      }
    }
  }

  /** Putting `pad` in front of the joined parts only changes the first piece of the split. */
  lemma {:induction false} SplitPrefixFirst(parts: seq<string>, sep: char, pad: string)
    requires |parts| >= 1
    requires sep !in pad
    requires forall i :: 0 <= i < |parts| ==> sep !in parts[i]
    ensures Split(pad + Join(parts, [sep] + pad), sep) ==
            [pad + parts[0]] + Split(Join(parts, [sep] + pad), sep)[1..]
  {
    assert sep !in pad + parts[0];
    if |parts| == 1 {
      SplitNoSeparator(parts[0], sep);
      SplitNoSeparator(pad + parts[0], sep);
    } else {
      var tail := pad + Join(parts[1..], [sep] + pad);
      assert Join(parts, [sep] + pad) == parts[0] + [sep] + tail;
      assert pad + Join(parts, [sep] + pad) == (pad + parts[0]) + [sep] + tail;
      SplitAtSeparator(pad + parts[0], sep, tail);
      SplitAtSeparator(parts[0], sep, tail);
    }
  }

  // ---------------------------------------------------------------------------
  // Decimal text of integers

  predicate IsDigit(c: char)
  {
    '0' <= c <= '9'
  }

  function DigitChar(d: int): (c: char)
    requires 0 <= d < 10
    ensures IsDigit(c) && DigitValue(c) == d
  {
    (('0' as int) + d) as char
  }

  function DigitValue(c: char): int
    requires IsDigit(c)
  {
    (c as int) - ('0' as int)
  }

  predicate AllDigits(s: string)
  {
    forall i :: 0 <= i < |s| ==> IsDigit(s[i])
  }

  /** The value of a string of decimal digits, most significant first. */
  function DigitsValue(s: string): nat
    requires AllDigits(s)
  {
    if |s| == 0 then 0 else 10 * DigitsValue(s[..|s| - 1]) + DigitValue(s[|s| - 1])
  }

  /** The decimal text of a natural number, without leading zeros. */
  function NatToString(n: nat): (r: string)
    ensures |r| >= 1 && AllDigits(r)
  {
    if n < 10 then [DigitChar(n)] else NatToString(n / 10) + [DigitChar(n % 10)]
  }

  /** `n.toString()` for an integer `n`. */
  function IntToString(n: int): (r: string)
    ensures |r| >= 1
  {
    if n < 0 then "-" + NatToString(-n) else NatToString(n)
  }

  /** `` `${n}` `` for a number: its decimal text, or "NaN". */
  function NumToString(n: Num): string
  {
    match n
    case Int(v) => IntToString(v)
    case NaN => "NaN"
  }

  /** The longest prefix of `s` made of decimal digits. */
  function DigitPrefix(s: string): (r: string)
    ensures AllDigits(r) && r <= s
    ensures |r| == |s| || !IsDigit(s[|r|])
  {
    if |s| > 0 && IsDigit(s[0]) then [s[0]] + DigitPrefix(s[1..]) else ""
  }

  /** `parseInt(s, 10)`: skip leading whitespace, read an optional sign and
      then as many digits as follow; no digit at all gives NaN. */
  function ParseInt(s: string): Num
  {
    if |s| > 0 && IsWhitespace(s[0]) then ParseInt(s[1..]) else SignedPrefix(s)
  }

  /** An optional sign and the run of digits after it, at the start of `t`. */
  function SignedPrefix(t: string): Num
  {
    var signed := |t| > 0 && (t[0] == '-' || t[0] == '+');
    var digits := DigitPrefix(if signed then t[1..] else t);
    if |digits| == 0 then NaN
    else if t[0] == '-' then Int(-(DigitsValue(digits) as int))
    else Int(DigitsValue(digits))
  }

  /** `Number(s)` (and `+s`) on decimal integer text: surrounding whitespace is
      ignored, the empty string is 0, and anything but an optionally signed
      run of digits is NaN. */
  function ToNumber(s: string): Num
  {
    var t := Trim(s);
    if |t| == 0 then Int(0) else SignedInteger(t)
  }

  /** An optionally signed run of digits, the whole of `t`, or NaN. */
  function SignedInteger(t: string): Num
    requires |t| > 0
  {
    var body := if t[0] == '-' || t[0] == '+' then t[1..] else t;
    if |body| == 0 || !AllDigits(body) then NaN
    else if t[0] == '-' then Int(-(DigitsValue(body) as int))
    else Int(DigitsValue(body))
  }

  /** Reading back the decimal text of a natural number gives the number. */
  lemma {:induction false} DigitsValueOfNatToString(n: nat)
    ensures DigitsValue(NatToString(n)) == n
  {
    var s := NatToString(n);
    if n >= 10 {
      DigitsValueOfNatToString(n / 10);
      assert s[..|s| - 1] == NatToString(n / 10);
    }
  }

  lemma {:induction false} DigitPrefixOfDigits(s: string)
    requires AllDigits(s)
    ensures DigitPrefix(s) == s
  {
    if |s| > 0 {
      DigitPrefixOfDigits(s[1..]);
      assert [s[0]] + s[1..] == s;
    }
  }

  /** `parseInt(n.toString(), 10) == n`: an option's value attribute, which
      the page renders from an integer id, parses back to that id. */
  lemma {:induction false} ParseIntOfIntToString(n: int)
    ensures ParseInt(IntToString(n)) == Int(n)
  {
    var s := IntToString(n);
    var d := NatToString(if n < 0 then -n else n);
    assert !IsWhitespace(s[0]);
    DigitPrefixOfDigits(d);
    DigitsValueOfNatToString(if n < 0 then -n else n);
    if n < 0 {
      assert s[1..] == d;
      assert DigitPrefix(s[1..]) == d;
    } else {
      assert DigitPrefix(s) == d;
    }
  }

  /** `Number(n.toString()) == n`. */
  lemma {:induction false} NumberOfIntToString(n: int)
    ensures ToNumber(IntToString(n)) == Int(n)
  {
    IntToStringIsTrimmed(n);
    SignedIntegerOfIntToString(n);
  }

  /** The decimal text of an integer has no surrounding whitespace. */
  lemma IntToStringIsTrimmed(n: int)
    ensures Trim(IntToString(n)) == IntToString(n)
  {
    var s := IntToString(n);
    var d := NatToString(if n < 0 then -n else n);
    assert IsDigit(d[0]) && IsDigit(d[|d| - 1]);
    assert s[|s| - 1] == d[|d| - 1];
    assert s[0] == (if n < 0 then '-' else d[0]);
    assert IsTrimmed(s);
    TrimPadded("", s, "");
    assert "" + s + "" == s;
  }

  lemma SignedIntegerOfIntToString(n: int)
    ensures SignedInteger(IntToString(n)) == Int(n)
  {
    var s := IntToString(n);
    var d := NatToString(if n < 0 then -n else n);
    DigitsValueOfNatToString(if n < 0 then -n else n);
    if n < 0 {
      assert s[1..] == d;
    } else {
      assert s == d;
    }
  }

  /** Distinct integers have distinct decimal texts. */
  lemma {:induction false} IntToStringInjective(m: int, n: int)
    ensures IntToString(m) == IntToString(n) <==> m == n
  {
    if IntToString(m) == IntToString(n) {
      ParseIntOfIntToString(m);
      ParseIntOfIntToString(n);
    }
  }
}

=== FILE: login_page.dfy ===
/** The login page: one submit that posts the credentials and, depending on
    the response, records the session in browser storage and picks where to
    go next, or shows an error. Both inputs are `required`, so the browser
    holds the submit back while either is empty. */
module LoginPage {
  import opened Wrappers
  import opened Js
  import opened Http
  import opened Browser

  datatype LoginForm = LoginForm(username: string, password: string, errorMessage: string)

  /** How the login request ends: a response that is not ok, an ok response
      with its JSON data (whose `userId` may be missing), or a rejection
      (network failure, unreadable body) carrying its message. */
  datatype LoginResponse =
    | NotOk
    | Ok(accessToken: string, userId: Option<int>, userType: string)
    | Rejected(message: string)

  /** What a submit leaves behind: the form, the storage, and the route it
      navigates to (none when it fails). */
  datatype LoginOutcome = LoginOutcome(form: LoginForm, storage: Storage, destination: Option<string>)

  const InvalidCredentials := "Invalid credentials"

  /** The roles the page sends to the dashboard. */
  predicate IsKnownRole(userType: string)
  {
    userType == "HOD" || userType == "MANAGER" || userType == "EXECUTIVE" || userType == "SUPERADMIN"
  }

  /** The route after a successful login. */
  function Destination(userType: string): (r: string)
    ensures r == "/dashboard" <==> IsKnownRole(userType)
    ensures r == "/" <==> !IsKnownRole(userType)
  {
    if IsKnownRole(userType) then "/dashboard" else "/"
  }

  /** The form's constraint check: both inputs are filled. */
  predicate Submittable(form: LoginForm)
  {
    Filled(form.username) && Filled(form.password)
  }

  /** The request a submit sends: the credentials, once the form passes its check. */
  function LoginRequest(form: LoginForm): (r: Option<Request>)
    ensures r.Some? <==> Submittable(form)
    ensures r.Some? ==> r.value.Post? && r.value.path == "/auth/login"
    ensures r.Some? ==> r.value.body == map["username" := JStr(form.username), "password" := JStr(form.password)]
  {
    if Submittable(form) then
      Some(Post("/auth/login", map["username" := JStr(form.username), "password" := JStr(form.password)]))
    else None
  }

  /** The session a successful login stores: the token, the user id as
      decimal text, and the role. */
  function StoreSession(storage: Storage, token: string, userId: int, userType: string): (r: Storage)
    ensures r.Keys == storage.Keys + {"access_token", "userId", "userType"}
    ensures r["access_token"] == token && r["userType"] == userType
    ensures r["userId"] == IntToString(userId)
    ensures forall k :: k in storage && k != "access_token" && k != "userId" && k != "userType" ==> r[k] == storage[k]
  {
    storage["access_token" := token]["userId" := IntToString(userId)]["userType" := userType]
  }

  /** `handleSubmit`, run only once the form passes its check (otherwise
      nothing happens): the error is cleared first; a response that is not ok
      becomes "Invalid credentials", a rejection shows its own message, and an
      ok response stores the session and navigates. An ok response without a
      `userId` has its token stored before `userId.toString()` throws; the
      TypeError's message is shown and nothing navigates. */
  function HandleSubmit(form: LoginForm, storage: Storage, response: LoginResponse): (r: LoginOutcome)
    ensures r.form.username == form.username && r.form.password == form.password
    ensures !Submittable(form) ==> r == LoginOutcome(form, storage, None)
    ensures Submittable(form) && response.NotOk? ==>
      r.form.errorMessage == InvalidCredentials && r.storage == storage && r.destination.None?
    ensures Submittable(form) && response.Rejected? ==>
      r.form.errorMessage == response.message && r.storage == storage && r.destination.None?
    ensures Submittable(form) && response.Ok? && response.userId.None? ==>
      && r.form.errorMessage == UndefinedToStringMessage
      && r.storage == storage["access_token" := response.accessToken]
      && r.destination.None?
    ensures Submittable(form) && response.Ok? && response.userId.Some? ==>
      && r.form.errorMessage == ""
      && r.storage == StoreSession(storage, response.accessToken, response.userId.value, response.userType)
      && r.destination == Some(Destination(response.userType))
  {
    if !Submittable(form) then LoginOutcome(form, storage, None)
    else
      var cleared := form.(errorMessage := "");
      match response
      case NotOk => LoginOutcome(cleared.(errorMessage := InvalidCredentials), storage, None)
      case Rejected(message) => LoginOutcome(cleared.(errorMessage := message), storage, None)
      case Ok(token, None, _) =>
        LoginOutcome(cleared.(errorMessage := UndefinedToStringMessage), storage["access_token" := token], None)
      case Ok(token, Some(userId), userType) =>
        LoginOutcome(cleared, StoreSession(storage, token, userId, userType), Some(Destination(userType)))
  }

  /** A filled-in page navigates exactly when the server accepted the
      credentials and sent a user id, and then the stored session reads back
      as the response gave it. */
  lemma NavigatesOnlyOnSuccess(form: LoginForm, storage: Storage, response: LoginResponse)
    requires Submittable(form)
    ensures HandleSubmit(form, storage, response).destination.Some? <==> response.Ok? && response.userId.Some?
    ensures response.Ok? && response.userId.Some? ==>
      var s := HandleSubmit(form, storage, response).storage;
      && s["access_token"] == response.accessToken
      && ToNumber(s["userId"]) == Int(response.userId.value)
      && s["userType"] == response.userType
  {
    if response.Ok? && response.userId.Some? {
      NumberOfIntToString(response.userId.value);
    }
  }

  /** On a filled-in page, a response that is not ok, or an ok one without a
      user id, shows a non-empty error, whatever error was showing before. */
  lemma FailureShowsError(form: LoginForm, storage: Storage, token: string, userType: string)
    requires Submittable(form)
    ensures HandleSubmit(form, storage, NotOk).form.errorMessage != ""
    ensures HandleSubmit(form, storage, Ok(token, None, userType)).form.errorMessage != ""
  {
  }

  /** A successful submit clears an error left over from an earlier attempt. */
  lemma SuccessClearsEarlierError(form: LoginForm, storage: Storage, token: string, userId: int, userType: string)
    requires Submittable(form)
    ensures HandleSubmit(form, storage, Ok(token, Some(userId), userType)).form.errorMessage == ""
  {
  }

  /** With either input empty nothing is sent, whatever the server would
      have answered, and the page stays as it was. */
  lemma EmptyFieldBlocksSubmit(form: LoginForm, storage: Storage, response: LoginResponse)
    requires form.username == "" || form.password == ""
    ensures LoginRequest(form).None?
    ensures HandleSubmit(form, storage, response) == LoginOutcome(form, storage, None)
  {
  }

  /** An ok response without a user id leaves half a session: the new token is
      stored while the id and role stay as an earlier session left them. */
  lemma MissingUserIdLeavesHalfSession(form: LoginForm, storage: Storage, token: string, userType: string)
    requires Submittable(form)
    ensures var s := HandleSubmit(form, storage, Ok(token, None, userType)).storage;
      && s["access_token"] == token
      && ("userId" in s <==> "userId" in storage)
      && ("userType" in s <==> "userType" in storage)
      && ("userId" in storage ==> s["userId"] == storage["userId"])
      && ("userType" in storage ==> s["userType"] == storage["userType"])
  {
  }
}

=== FILE: pagination.dfy ===
/** The 8-rows-per-page pager shared by the service and sub-category tables. */
module Pagination {

  const ItemsPerPage: nat := 8

  function Min(a: int, b: int): int { if a <= b then a else b }

  function Max(a: int, b: int): int { if a >= b then a else b }

  /** A `slice` bound: a negative one counts back from the end, then it is clamped to `[0, n]`. */
  function SliceBound(i: int, n: nat): (r: nat)
    ensures r <= n
    ensures 0 <= i <= n ==> r == i
    ensures i > n ==> r == n
  {
    var j := if i < 0 then n + i else i;
    if j < 0 then 0 else if j > n then n else j
  }

  /** `xs.slice(start, end)` */
  function Slice<T>(xs: seq<T>, start: int, end: int): (r: seq<T>)
    ensures 0 <= start <= end ==> r == xs[Min(start, |xs|)..Min(end, |xs|)]
    ensures |r| <= Max(0, SliceBound(end, |xs|) - SliceBound(start, |xs|))
  {
    var from := SliceBound(start, |xs|);
    var to := SliceBound(end, |xs|);
    if from < to then xs[from..to] else []
  }

  /** The rows shown on page `page`: `xs.slice(page * 8 - 8, page * 8)`. */
  function PageRows<T>(xs: seq<T>, page: int): (r: seq<T>)
    ensures |r| <= ItemsPerPage
    ensures page >= 1 ==> r == xs[Min((page - 1) * ItemsPerPage, |xs|)..Min(page * ItemsPerPage, |xs|)]
  {
    var last := page * ItemsPerPage;
    var first := last - ItemsPerPage;
    Slice(xs, first, last)
  }

  /** `Math.ceil(n / 8)`: the number of page buttons. */
  function PageCount(n: nat): (r: nat)
    ensures r * ItemsPerPage >= n
    ensures r == 0 || (r - 1) * ItemsPerPage < n
  {
    (n + ItemsPerPage - 1) / ItemsPerPage
  }

  /** The Previous button is disabled exactly on page 1. */
  predicate PreviousDisabled(page: int)
  {
    page == 1
  }

  /** The Next button as written: disabled only when the page equals the page count. */
  predicate NextDisabledAsWritten(page: int, n: nat)
  {
    page == PageCount(n)
  }

  /** The Next button as evidently intended: disabled on the last page and
      on every page past it, including the only page of an empty table. */
  predicate NextDisabled(page: int, n: nat)
  {
    page >= PageCount(n)
  }

  /** A click on the pager. */
  datatype PagerClick = Previous | Next | PageButton(index: nat)

  /** The page after a click as written: a disabled button or a button that is
      not rendered does nothing; page button `index` goes to page `index + 1`. */
  function NavigateAsWritten(page: int, n: nat, click: PagerClick): int
  {
    match click
    case Previous => if PreviousDisabled(page) then page else page - 1
    case Next => if NextDisabledAsWritten(page, n) then page else page + 1
    case PageButton(index) => if index < PageCount(n) then index + 1 else page
  }

  /** The page after a click, with Next disabled from the last page on. */
  function Navigate(page: int, n: nat, click: PagerClick): int
  {
    match click
    case Previous => if PreviousDisabled(page) then page else page - 1
    case Next => if NextDisabled(page, n) then page else page + 1
    case PageButton(index) => if index < PageCount(n) then index + 1 else page
  }

  /** The pages a table of `n` rows can show: 1 up to the last page, and page 1 when empty. */
  predicate InRange(page: int, n: nat)
  {
    1 <= page <= Max(1, PageCount(n))
  }

  /** Pages 1 to `k` shown one after the other. */
  function Pages<T>(xs: seq<T>, k: nat): seq<T>
  {
    if k == 0 then [] else Pages(xs, k - 1) + PageRows(xs, k)
  }

  /** The first `k` pages together are the first `8 * k` rows of the list. */
  lemma {:induction false} PagesArePrefix<T>(xs: seq<T>, k: nat)
    ensures Pages(xs, k) == xs[..Min(k * ItemsPerPage, |xs|)]
  {
    if k > 0 {
      PagesArePrefix(xs, k - 1);
      var a := Min((k - 1) * ItemsPerPage, |xs|);
      var b := Min(k * ItemsPerPage, |xs|);
      assert xs[..a] + xs[a..b] == xs[..b];
    }
  }

  /** Paging through every page button shows each row exactly once, in order. */
  lemma PagesCoverList<T>(xs: seq<T>)
    ensures Pages(xs, PageCount(|xs|)) == xs
  {
    PagesArePrefix(xs, PageCount(|xs|));
    assert xs[..|xs|] == xs;
  }

  /** From page 1 on, a page has rows exactly when a button for it is rendered. */
  lemma PageRowsNonEmpty<T>(xs: seq<T>, page: int)
    requires page >= 1
    ensures |PageRows(xs, page)| > 0 <==> page <= PageCount(|xs|)
  {
  }

  /** On an empty table Next is never disabled as written: Math.ceil(0 / 8) is 0
      and the page never is. */
  lemma NextEnabledOnEmptyList(page: int)
    requires page >= 1
    ensures !NextDisabledAsWritten(page, 0)
  {
  }

  /** The pager as written leaves the pages of an empty table: Next on page 1
      goes to page 2, which shows nothing and keeps Next enabled. */
  lemma NextAsWrittenLeavesRange<T>(xs: seq<T>)
    requires xs == []
    ensures InRange(1, |xs|)
    ensures NavigateAsWritten(1, |xs|, Next) == 2
    ensures !InRange(2, |xs|) && PageRows(xs, 2) == []
    ensures !NextDisabledAsWritten(2, |xs|)
  {
  }

  /** With Next disabled from the last page on, no click leaves the pages a table can show. */
  lemma NavigateStaysInRange(page: int, n: nat, click: PagerClick)
    requires InRange(page, n)
    ensures InRange(Navigate(page, n, click), n)
  {
  }

  /** Both pagers agree everywhere inside the range of pages except on the
      only page of an empty table. */
  lemma NavigateAgreesInRange(page: int, n: nat, click: PagerClick)
    requires InRange(page, n) && n > 0
    ensures Navigate(page, n, click) == NavigateAsWritten(page, n, click)
  {
  }
}

=== FILE: product_table.dfy ===
/** The product screen: the product list with each row's category and
    sub-category names looked up by id, the edit action that opens the
    update dialog, and the delete action. */
module ProductTable {
  import opened Wrappers
  import opened Js
  import opened Http
  import Seqs
  import UpdateProductModal

  /** A product row as `GET /products` returns it; its sub-category id is typed as text. */
  datatype Product = Product(
    id: string, productId: string, productName: string, productDescription: string, hsn: string,
    categoryId: int, subCategoryId: string)

  /** An entry of the category or the sub-category list the screen loads for name lookups. */
  datatype NamedEntry = NamedEntry(id: int, categoryName: string, subCategoryName: string)

  datatype ProductTableState = ProductTableState(
    products: seq<Product>,
    categories: seq<NamedEntry>,
    subCategories: seq<NamedEntry>,
    createOpen: bool,
    showUpdate: bool,
    selectedId: string,
    selected: Option<Product>)

  /** The name shown when a lookup finds nothing. */
  const Unknown := "Unknown"

  /** `getCategoryName`: the name of the first category with the given id, or "Unknown". */
  function GetCategoryName(categories: seq<NamedEntry>, id: int): (r: string)
    ensures (forall i :: 0 <= i < |categories| ==> categories[i].id != id) ==> r == Unknown
    ensures forall i :: 0 <= i < |categories| ==>
              (categories[i].id == id && forall j :: 0 <= j < i ==> categories[j].id != id) ==>
                r == categories[i].categoryName
  {
    match Seqs.FindIndex(categories, (c: NamedEntry) => c.id == id)
    case None => Unknown
    case Some(i) => categories[i].categoryName
  }

  /** `getSubCategoryName`: the text id goes through `Number` before the
      comparison, so text that is not a decimal integer matches nothing. */
  function GetSubCategoryName(subCategories: seq<NamedEntry>, id: string): (r: string)
    ensures (forall i :: 0 <= i < |subCategories| ==> Int(subCategories[i].id) != ToNumber(id)) ==> r == Unknown
    ensures forall i :: 0 <= i < |subCategories| ==>
              (Int(subCategories[i].id) == ToNumber(id) && forall j :: 0 <= j < i ==> Int(subCategories[j].id) != ToNumber(id)) ==>
                r == subCategories[i].subCategoryName
  {
    match Seqs.FindIndex(subCategories, (s: NamedEntry) => Int(s.id) == ToNumber(id))
    case None => Unknown
    case Some(i) => subCategories[i].subCategoryName
  }

  /** `handleEdit`: records the product and its id and shows the update dialog. */
  function HandleEdit(st: ProductTableState, p: Product): (r: ProductTableState)
    ensures r.selected == Some(p) && r.selectedId == p.id && r.showUpdate
    ensures r == st.(selected := Some(p), selectedId := p.id, showUpdate := true)
  {
    st.(selected := Some(p), selectedId := p.id, showUpdate := true)
  }

  /** The update dialog's `onHide`. */
  function HideUpdate(st: ProductTableState): (r: ProductTableState)
    ensures !r.showUpdate && r == st.(showUpdate := false)
  {
    st.(showUpdate := false)
  }

  /** The update dialog is in the page only while its flag is on and a product is selected. */
  predicate UpdateModalPresent(st: ProductTableState)
  {
    st.showUpdate && st.selected.Some?
  }

  /** `handleDelete`: a DELETE to the product's path. */
  function DeleteRequest(id: string): (r: Request)
    ensures r.Delete? && r.path == "/products/" + id
  {
    Delete("/products/" + id)
  }

  /** Editing a product puts the update dialog in the page, given that product's id. */
  lemma EditShowsDialogForProduct(st: ProductTableState, p: Product)
    ensures UpdateModalPresent(HandleEdit(st, p))
    ensures HandleEdit(st, p).selectedId == p.id
  {
  }

  /** Hiding the dialog takes it out of the page; editing again brings it back. */
  lemma HideThenEditShows(st: ProductTableState, p: Product)
    ensures !UpdateModalPresent(HideUpdate(st))
    ensures UpdateModalPresent(HandleEdit(HideUpdate(st), p))
  {
  }

  /** With no selection, the flag alone does not put the dialog in the page. */
  lemma NoSelectionNoDialog(st: ProductTableState)
    requires st.selected.None?
    ensures !UpdateModalPresent(st)
  {
  }

  /** A category id present in the list shows that category's name, when ids are unique. */
  lemma CategoryNameOfListedId(categories: seq<NamedEntry>, i: int)
    requires 0 <= i < |categories|
    requires forall a, b :: 0 <= a < b < |categories| ==> categories[a].id != categories[b].id
    ensures GetCategoryName(categories, categories[i].id) == categories[i].categoryName
  {
  }

  /** A sub-category id written in decimal finds its entry, when ids are unique. */
  lemma {:induction false} SubCategoryNameOfListedId(subCategories: seq<NamedEntry>, i: int)
    requires 0 <= i < |subCategories|
    requires forall a, b :: 0 <= a < b < |subCategories| ==> subCategories[a].id != subCategories[b].id
    ensures GetSubCategoryName(subCategories, IntToString(subCategories[i].id)) == subCategories[i].subCategoryName
  {
    NumberOfIntToString(subCategories[i].id);
  }

  /** A sub-category id that is not decimal integer text shows "Unknown". */
  lemma NonNumericSubCategoryUnknown(subCategories: seq<NamedEntry>, id: string)
    requires ToNumber(id) == NaN
    ensures GetSubCategoryName(subCategories, id) == Unknown
  {
  }

  /** For a product whose id is decimal integer text, Delete and the update
      dialog opened by Edit target the same path: the dialog's `parseInt`
      gives back the text the delete uses as it is. */
  lemma DeleteAndUpdateTargetSamePath(st: ProductTableState, p: Product, dialog: UpdateProductModal.UpdateState, n: int)
    requires p.id == IntToString(n)
    requires UpdateProductModal.Submittable(dialog)
    ensures UpdateProductModal.Submit(dialog, HandleEdit(st, p).selectedId).value.path == DeleteRequest(p.id).path
  {
    ParseIntOfIntToString(n);
  }

  /** An id with leading zeros is deleted at its own text but updated at the
      path of its number: "007" is deleted at /products/007 and updated at /products/7. */
  lemma LeadingZerosSplitPaths(dialog: UpdateProductModal.UpdateState)
    requires UpdateProductModal.Submittable(dialog)
    ensures DeleteRequest("007").path == "/products/007"
    ensures UpdateProductModal.Submit(dialog, "007").value.path == "/products/7"
  {
    var t := "007";
    assert !IsWhitespace(t[0]) && t[0] != '-' && t[0] != '+';
    assert t[1..] == "07" && t[1..][1..] == "7" && t[1..][1..][1..] == "";
    assert DigitPrefix(t) == t;
    assert DigitsValue("0") == 0 && DigitsValue("00") == 0;
    assert "007"[..2] == "00" && "00"[..1] == "0";
    assert DigitsValue(t) == 7;
    assert ParseInt(t) == Int(7);
    assert IntToString(7) == "7";
  }
}

=== FILE: seqs.dfy ===
/** Sequence helpers that mirror the JavaScript array methods the console uses. */
module Seqs {
  import opened Wrappers

  /** `xs.findIndex(p)`: the position of the first element satisfying `p`, or none. */
  function FindIndex<T>(xs: seq<T>, p: T -> bool): (r: Option<nat>)
    ensures r.None? <==> forall i :: 0 <= i < |xs| ==> !p(xs[i])
    ensures r.Some? ==> r.value < |xs| && p(xs[r.value]) && NoneBefore(xs, p, r.value)
  {
    if |xs| == 0 then None
    else if p(xs[0]) then Some(0)
    else
      match FindIndex(xs[1..], p)
      case None => None
      case Some(i) => Some(i + 1)
  }

  /** `xs.find(p)`: the first element satisfying `p`, or none. */
  function Find<T>(xs: seq<T>, p: T -> bool): (r: Option<T>)
    ensures r.None? <==> forall i :: 0 <= i < |xs| ==> !p(xs[i])
    ensures r.Some? ==> exists i :: 0 <= i < |xs| && xs[i] == r.value && p(xs[i]) && NoneBefore(xs, p, i)
  {
    match FindIndex(xs, p)
    case None => None
    case Some(i) => Some(xs[i])
  }

  /** No element before position `i` satisfies `p`. */
  ghost predicate NoneBefore<T>(xs: seq<T>, p: T -> bool, i: int)
    requires 0 <= i <= |xs|
  {
    forall j :: 0 <= j < i ==> !p(xs[j])
  }

  /** `xs.reverse()` */
  function Reverse<T>(xs: seq<T>): (r: seq<T>)
    ensures |r| == |xs|
    ensures forall i :: 0 <= i < |xs| ==> r[i] == xs[|xs| - 1 - i]
  {
    if |xs| == 0 then [] else Reverse(xs[1..]) + [xs[0]]
  }

  /** Reversing twice gives back the original order. */
  lemma ReverseInvolution<T>(xs: seq<T>)
    ensures Reverse(Reverse(xs)) == xs
  {
  }

  /** `xs.map(f)` */
  function Map<T, U>(xs: seq<T>, f: T -> U): (r: seq<U>)
    ensures |r| == |xs|
    ensures forall i :: 0 <= i < |xs| ==> r[i] == f(xs[i])
  {
    if |xs| == 0 then [] else [f(xs[0])] + Map(xs[1..], f)
  }
}

=== FILE: service_table.dfy ===
/** The service screen: the service list (newest first, eight to a page), the
    category → sub-category selects of its dialog, and the create and update
    requests. */
module ServiceTable {
  import opened Wrappers
  import opened Js
  import opened Http
  import opened Catalog
  import opened Pagination
  import Seqs

  datatype Service = Service(
    id: int, serviceName: string, serviceDescription: string, sac: string,
    departmentId: int, categoryId: int, subCategoryId: int)

  /** The dialog's four form fields; `departmentId` holds `+value` of the department select. */
  datatype ServiceForm = ServiceForm(serviceName: string, serviceDescription: string, sac: string, departmentId: Num)

  const EmptyForm := ServiceForm("", "", "", Int(0))

  /** The `name` attribute of the dialog's inputs. */
  datatype FormField = ServiceName | ServiceDescription | Sac | DepartmentId

  /** The screen's state. The category and sub-category selects hold their raw
      string values outside the form. */
  datatype ServiceState = ServiceState(
    services: seq<Service>,
    categories: seq<Category>,
    subCategories: seq<SubCategory>,
    categoryId: string,
    subCategoryId: string,
    form: ServiceForm,
    createOpen: bool,
    updateOpen: bool,
    selected: Option<Service>,
    page: int)

  /** `fetchServices`: the table lists the fetched services in reverse order. */
  function ServicesLoaded(st: ServiceState, fetched: seq<Service>): (r: ServiceState)
    ensures |r.services| == |fetched|
    ensures forall i :: 0 <= i < |fetched| ==> r.services[i] == fetched[|fetched| - 1 - i]
    ensures r == st.(services := r.services)
  {
    st.(services := Seqs.Reverse(fetched))
  }

  /** `handleCategoryChange`: record the value, offer that category's
      sub-categories (none when no id matches) and clear the sub-category. */
  function CategoryChanged(st: ServiceState, value: string): (r: ServiceState)
    ensures r.categoryId == value && r.subCategoryId == ""
    ensures r.subCategories == SubCategoriesFor(st.categories, value)
    ensures (forall i :: 0 <= i < |st.categories| ==> IntToString(st.categories[i].id) != value) ==> r.subCategories == []
    ensures (exists i :: 0 <= i < |st.categories| && IntToString(st.categories[i].id) == value) ==>
              exists i :: 0 <= i < |st.categories| && IntToString(st.categories[i].id) == value
                          && r.subCategories == st.categories[i].subCategories
    ensures r == st.(categoryId := value, subCategoryId := "", subCategories := r.subCategories)
  {
    st.(categoryId := value, subCategories := SubCategoriesFor(st.categories, value), subCategoryId := "")
  }

  /** `handleSubCategoryChange`: the sub-category select's value, unchecked. */
  function SubCategoryChanged(st: ServiceState, value: string): (r: ServiceState)
    ensures r.subCategoryId == value
    ensures r == st.(subCategoryId := value)
  {
    st.(subCategoryId := value)
  }

  /** A form field as it would be sent. */
  function FieldValue(f: ServiceForm, field: FormField): Json
  {
    match field
    case ServiceName => JStr(f.serviceName)
    case ServiceDescription => JStr(f.serviceDescription)
    case Sac => JStr(f.sac)
    case DepartmentId => JNum(f.departmentId)
  }

  /** The form with `field` set: the department to `n`, a text field to `text`. */
  function SetField(f: ServiceForm, field: FormField, text: string, n: Num): (r: ServiceForm)
    ensures FieldValue(r, field) == (if field == DepartmentId then JNum(n) else JStr(text))
    ensures forall g :: g != field ==> FieldValue(r, g) == FieldValue(f, g)
  {
    match field
    case ServiceName => f.(serviceName := text)
    case ServiceDescription => f.(serviceDescription := text)
    case Sac => f.(sac := text)
    case DepartmentId => f.(departmentId := n)
  }

  /** `handleInputChange`: only the named field changes; the department is
      converted with `+value`, the text fields are kept as typed. */
  function InputChanged(st: ServiceState, field: FormField, value: string): (r: ServiceState)
    ensures FieldValue(r.form, field) == (if field == DepartmentId then JNum(ToNumber(value)) else JStr(value))
    ensures forall g :: g != field ==> FieldValue(r.form, g) == FieldValue(st.form, g)
    ensures r == st.(form := r.form)
  {
    st.(form := SetField(st.form, field, value, ToNumber(value)))
  }

  /** The body of the create and update requests: the form's fields, then the
      two selects converted with `+`. */
  function Payload(st: ServiceState): (b: Body)
    ensures b.Keys == {"serviceName", "serviceDescription", "SAC", "departmentId", "categoryId", "subCategoryId"}
    ensures b["serviceName"] == JStr(st.form.serviceName)
    ensures b["serviceDescription"] == JStr(st.form.serviceDescription)
    ensures b["SAC"] == JStr(st.form.sac)
    ensures b["departmentId"] == JNum(st.form.departmentId)
    ensures b["categoryId"] == JNum(ToNumber(st.categoryId))
    ensures b["subCategoryId"] == JNum(ToNumber(st.subCategoryId))
  {
    map[
      "serviceName" := JStr(st.form.serviceName),
      "serviceDescription" := JStr(st.form.serviceDescription),
      "SAC" := JStr(st.form.sac),
      "departmentId" := JNum(st.form.departmentId),
      "categoryId" := JNum(ToNumber(st.categoryId)),
      "subCategoryId" := JNum(ToNumber(st.subCategoryId))]
  }

  /** `handleCreate`: POST the payload; the dialog closes only on success. */
  function Create(st: ServiceState, succeeded: bool): (r: Step<ServiceState>)
    ensures r.requests == [Post("/service", Payload(st))]
    ensures r.state == (if succeeded then st.(createOpen := false) else st)
  {
    Step(if succeeded then st.(createOpen := false) else st, [Post("/service", Payload(st))])
  }

  /** `handleUpdate`: PUT the payload to the selected service; nothing without a selection. */
  function Update(st: ServiceState, succeeded: bool): (r: Step<ServiceState>)
    ensures st.selected.None? ==> r == Step(st, [])
    ensures st.selected.Some? ==> r.requests == [Put(ItemPath("/service", st.selected.value.id), Payload(st))]
    ensures st.selected.Some? ==> r.state == (if succeeded then st.(updateOpen := false) else st)
  {
    match st.selected
    case None => Step(st, [])
    case Some(s) =>
      Step(if succeeded then st.(updateOpen := false) else st, [Put(ItemPath("/service", s.id), Payload(st))])
  }

  /** The Edit button: select the row, copy its four form fields and write its
      category and sub-category ids, in decimal (`toString()`), into the
      selects. The sub-category options are left as they were. */
  function EditPrefill(st: ServiceState, s: Service): (r: ServiceState)
    ensures r.selected == Some(s) && r.updateOpen
    ensures r.form == ServiceForm(s.serviceName, s.serviceDescription, s.sac, Int(s.departmentId))
    ensures r.categoryId == IntToString(s.categoryId) && r.subCategoryId == IntToString(s.subCategoryId)
    ensures ToNumber(r.categoryId) == Int(s.categoryId) && ToNumber(r.subCategoryId) == Int(s.subCategoryId)
    ensures r.subCategories == st.subCategories
    ensures r == st.(selected := Some(s), form := r.form, categoryId := r.categoryId,
                     subCategoryId := r.subCategoryId, updateOpen := true)
  {
    NumberOfIntToString(s.categoryId);
    NumberOfIntToString(s.subCategoryId);
    st.(selected := Some(s),
        form := ServiceForm(s.serviceName, s.serviceDescription, s.sac, Int(s.departmentId)),
        categoryId := IntToString(s.categoryId),
        subCategoryId := IntToString(s.subCategoryId),
        updateOpen := true)
  }

  /** "Add Service": blank the four form fields and open the create dialog;
      the previous category and sub-category values stay. */
  function AddService(st: ServiceState): (r: ServiceState)
    ensures r.form == EmptyForm && r.createOpen
    ensures r.categoryId == st.categoryId && r.subCategoryId == st.subCategoryId
    ensures r == st.(form := EmptyForm, createOpen := true)
  {
    st.(form := EmptyForm, createOpen := true)
  }

  /** The rows the table shows. */
  function CurrentRows(st: ServiceState): (rows: seq<Service>)
    ensures |rows| <= ItemsPerPage
    ensures st.page >= 1 ==>
      rows == st.services[Min((st.page - 1) * ItemsPerPage, |st.services|)..Min(st.page * ItemsPerPage, |st.services|)]
  {
    PageRows(st.services, st.page)
  }

  /** Saving an edited service untouched sends the service's own values back. */
  lemma UntouchedEditSendsRecord(st: ServiceState, s: Service)
    ensures var b := Payload(EditPrefill(st, s));
      && b["serviceName"] == JStr(s.serviceName)
      && b["serviceDescription"] == JStr(s.serviceDescription)
      && b["SAC"] == JStr(s.sac)
      && b["departmentId"] == JNum(Int(s.departmentId))
      && b["categoryId"] == JNum(Int(s.categoryId))
      && b["subCategoryId"] == JNum(Int(s.subCategoryId))
  {
  }

  /** Saving with a select still on its placeholder sends 0, since `+""` is 0. */
  lemma PlaceholderSendsZero(st: ServiceState)
    requires st.categoryId == "" && st.subCategoryId == ""
    ensures Payload(st)["categoryId"] == JNum(Int(0))
    ensures Payload(st)["subCategoryId"] == JNum(Int(0))
  {
  }

  /** Choosing a loaded category's option offers that category's sub-categories
      and clears the sub-category; choosing the placeholder offers none. */
  lemma CategoryOptionOffersItsSubCategories(st: ServiceState, i: int)
    requires UniqueIds(st.categories) && 0 <= i < |st.categories|
    ensures CategoryChanged(st, IntToString(st.categories[i].id)).subCategories == st.categories[i].subCategories
    ensures CategoryChanged(st, "").subCategories == []
  {
    SubCategoriesForOption(st.categories, i);
  }

  /** Choosing a department option stores that department's id as a number. */
  lemma DepartmentOptionStoresId(st: ServiceState, id: int)
    ensures InputChanged(st, DepartmentId, IntToString(id)).form.departmentId == Int(id)
  {
    NumberOfIntToString(id);
  }

  /** The Edit button keeps the options of the category chosen before it: after
      choosing category `i` and then editing a service that belongs to category
      `c`, the category select shows the service's category while the offered
      sub-categories are still those of `i`, which differ from the ones the
      shown category offers and do not include the service's sub-category. */
  lemma EditKeepsStaleOptions(st: ServiceState, s: Service, i: int, c: int, j: int)
    requires UniqueIds(st.categories) && 0 <= i < |st.categories| && 0 <= c < |st.categories|
    requires st.categories[c].id == s.categoryId
    requires 0 <= j < |st.categories[c].subCategories| && st.categories[c].subCategories[j].id == s.subCategoryId
    requires forall k :: 0 <= k < |st.categories[i].subCategories| ==> st.categories[i].subCategories[k].id != s.subCategoryId
    ensures var r := EditPrefill(CategoryChanged(st, IntToString(st.categories[i].id)), s);
      && r.categoryId == IntToString(s.categoryId)
      && r.subCategories == st.categories[i].subCategories
      && r.subCategories != SubCategoriesFor(r.categories, r.categoryId)
      && forall k :: 0 <= k < |r.subCategories| ==> r.subCategories[k].id != s.subCategoryId
  {
    SubCategoriesForOption(st.categories, i);
    SubCategoriesForOption(st.categories, c);
    var shown := SubCategoriesFor(st.categories, IntToString(s.categoryId));
    assert shown[j].id == s.subCategoryId;
  }
}

=== FILE: subcategory_table.dfy ===
/** The sub-category screen: the filtered list of sub-categories, eight to a
    page, and one dialog that both creates and updates a sub-category. */
module SubCategoryTable {
  import opened Wrappers
  import opened Js
  import opened Http
  import opened Pagination

  /** The category a fetched sub-category row carries nested inside it, when it carries one. */
  datatype CategoryRef = CategoryRef(id: int, categoryName: string)

  datatype SubCategoryRow = SubCategoryRow(id: int, subCategoryName: string, categoryId: int, category: Option<CategoryRef>)

  /** The dialog's form; `categoryId` holds `parseInt` of the category select's value. */
  datatype SubCategoryForm = SubCategoryForm(categoryId: Num, subCategoryName: string)

  const EmptyForm := SubCategoryForm(Int(0), "")

  datatype SubCategoryState = SubCategoryState(
    rows: seq<SubCategoryRow>,
    form: SubCategoryForm,
    createOpen: bool,
    updateOpen: bool,
    selected: Option<SubCategoryRow>,
    page: int)

  /** A fetched row is listed when its nested category name and its own name are both non-empty. */
  predicate Listed(row: SubCategoryRow)
  {
    row.category.Some? && row.category.value.categoryName != "" && row.subCategoryName != ""
  }

  /** The fetch filter: the listed rows, in their fetched order. */
  function ListedRows(fetched: seq<SubCategoryRow>): (r: seq<SubCategoryRow>)
    ensures forall x :: x in r <==> x in fetched && Listed(x)
    ensures |r| <= |fetched|
  {
    if |fetched| == 0 then []
    else (if Listed(fetched[0]) then [fetched[0]] else []) + ListedRows(fetched[1..])
  }

  /** Filtering a concatenation filters each part in place: the filter keeps the fetched order. */
  lemma {:induction false} ListedRowsAppend(a: seq<SubCategoryRow>, b: seq<SubCategoryRow>)
    ensures ListedRows(a + b) == ListedRows(a) + ListedRows(b)
  {
    if |a| == 0 {
      assert a + b == b;
    } else {
      assert (a + b)[1..] == a[1..] + b;
      ListedRowsAppend(a[1..], b);
    }
  }

  /** Filtering already filtered rows changes nothing. */
  lemma {:induction false} ListedRowsIdempotent(fetched: seq<SubCategoryRow>)
    ensures ListedRows(ListedRows(fetched)) == ListedRows(fetched)
  {
    if |fetched| > 0 {
      var head := if Listed(fetched[0]) then [fetched[0]] else [];
      ListedRowsAppend(head, ListedRows(fetched[1..]));
      ListedRowsIdempotent(fetched[1..]);
      if Listed(fetched[0]) {
        assert ListedRows(head) == head by {
          assert head[1..] == [];
        }
      }
    }
  }

  /** `fetchSubCategories`: the table holds the listed rows, in their fetched order. */
  function RowsLoaded(st: SubCategoryState, fetched: seq<SubCategoryRow>): (r: SubCategoryState)
    ensures forall x :: x in r.rows <==> x in fetched && Listed(x)
    ensures r.rows == ListedRows(fetched)
    ensures r == st.(rows := r.rows)
  {
    st.(rows := ListedRows(fetched))
  }

  /** The category select: `parseInt` of the chosen option's value; the
      placeholder's value `""` gives NaN. */
  function CategorySelected(st: SubCategoryState, value: string): (r: SubCategoryState)
    ensures r.form.categoryId == ParseInt(value)
    ensures r == st.(form := st.form.(categoryId := r.form.categoryId))
  {
    st.(form := st.form.(categoryId := ParseInt(value)))
  }

  /** The name input. */
  function NameTyped(st: SubCategoryState, value: string): (r: SubCategoryState)
    ensures r.form.subCategoryName == value
    ensures r == st.(form := st.form.(subCategoryName := value))
  {
    st.(form := st.form.(subCategoryName := value))
  }

  /** The submit guard `!categoryId || !subCategoryName`: 0, NaN and the empty name are falsy. */
  predicate Submittable(f: SubCategoryForm)
  {
    Truthy(f.categoryId) && f.subCategoryName != ""
  }

  function SubmitBody(f: SubCategoryForm): Body
  {
    map["categoryId" := JNum(f.categoryId), "subCategoryName" := JStr(f.subCategoryName)]
  }

  /** `handleSubmit`: an invalid form sends nothing and changes nothing; a
      valid one PUTs to the selected sub-category, or POSTs when none is
      selected. Success closes both dialogs and empties the form. */
  function Submit(st: SubCategoryState, succeeded: bool): (r: Step<SubCategoryState>)
    ensures !Submittable(st.form) ==> r == Step(st, [])
    ensures Submittable(st.form) && st.selected.Some? ==>
      r.requests == [Put(ItemPath("/subcategory", st.selected.value.id), SubmitBody(st.form))]
    ensures Submittable(st.form) && st.selected.None? ==>
      r.requests == [Post("/subcategory", SubmitBody(st.form))]
    ensures Submittable(st.form) && succeeded ==>
      r.state == st.(createOpen := false, updateOpen := false, form := EmptyForm)
    ensures Submittable(st.form) && !succeeded ==> r.state == st
  {
    if !Submittable(st.form) then Step(st, [])
    else
      var request := match st.selected
        case Some(s) => Put(ItemPath("/subcategory", s.id), SubmitBody(st.form))
        case None => Post("/subcategory", SubmitBody(st.form));
      Step(if succeeded then st.(createOpen := false, updateOpen := false, form := EmptyForm) else st, [request])
  }

  /** `openCreateModal` as written: empty form, create dialog open, and the
      selection of an earlier edit left in place. */
  function OpenCreateModalAsWritten(st: SubCategoryState): (r: SubCategoryState)
    ensures r.form == EmptyForm && r.createOpen
    ensures r.selected == st.selected
    ensures r == st.(form := EmptyForm, createOpen := true)
  {
    st.(form := EmptyForm, createOpen := true)
  }

  /** `openCreateModal` as evidently intended: it also clears the selection,
      so that the dialog creates. */
  function OpenCreateModal(st: SubCategoryState): (r: SubCategoryState)
    ensures r.form == EmptyForm && r.createOpen && r.selected.None?
    ensures r == OpenCreateModalAsWritten(st).(selected := None)
  {
    st.(form := EmptyForm, createOpen := true, selected := None)
  }

  /** `openUpdateModal`: select the row and prefill the form from its nested category id and its name. */
  function OpenUpdateModal(st: SubCategoryState, row: SubCategoryRow): (r: SubCategoryState)
    requires row.category.Some?
    ensures r.selected == Some(row) && r.updateOpen
    ensures r.form == SubCategoryForm(Int(row.category.value.id), row.subCategoryName)
    ensures r == st.(selected := Some(row), form := r.form, updateOpen := true)
  {
    st.(selected := Some(row), form := SubCategoryForm(Int(row.category.value.id), row.subCategoryName), updateOpen := true)
  }

  /** The Cancel button closes both dialogs and keeps everything else. */
  function Cancel(st: SubCategoryState): (r: SubCategoryState)
    ensures !r.createOpen && !r.updateOpen
    ensures r.form == st.form && r.selected == st.selected
    ensures r == st.(createOpen := false, updateOpen := false)
  {
    st.(createOpen := false, updateOpen := false)
  }

  /** The rows the table shows. */
  function CurrentRows(st: SubCategoryState): (rows: seq<SubCategoryRow>)
    ensures |rows| <= ItemsPerPage
    ensures st.page >= 1 ==>
      rows == st.rows[Min((st.page - 1) * ItemsPerPage, |st.rows|)..Min(st.page * ItemsPerPage, |st.rows|)]
  {
    PageRows(st.rows, st.page)
  }

  /** Leaving the category select on its placeholder always blocks the submit. */
  lemma PlaceholderBlocksSubmit(st: SubCategoryState, succeeded: bool)
    ensures Submit(CategorySelected(st, ""), succeeded) == Step(CategorySelected(st, ""), [])
  {
  }

  /** Choosing a category option stores that category's id. */
  lemma CategoryOptionStoresId(st: SubCategoryState, id: int)
    ensures CategorySelected(st, IntToString(id)).form.categoryId == Int(id)
  {
    ParseIntOfIntToString(id);
  }

  /** After an edit, "Add Subcategory" as written still updates: with the old
      row selected, the filled-in create dialog PUTs to that row. */
  lemma AddAfterEditUpdatesAsWritten(st: SubCategoryState, row: SubCategoryRow, categoryId: int, name: string)
    requires row.category.Some? && categoryId != 0 && name != ""
    ensures var s := NameTyped(CategorySelected(OpenCreateModalAsWritten(Cancel(OpenUpdateModal(st, row))), IntToString(categoryId)), name);
      Submit(s, true).requests == [Put(ItemPath("/subcategory", row.id), SubmitBody(SubCategoryForm(Int(categoryId), name)))]
  {
    ParseIntOfIntToString(categoryId);
  }

  /** With the selection cleared, the filled-in create dialog always POSTs. */
  lemma AddAlwaysCreates(st: SubCategoryState, categoryId: int, name: string)
    requires categoryId != 0 && name != ""
    ensures var s := NameTyped(CategorySelected(OpenCreateModal(st), IntToString(categoryId)), name);
      Submit(s, true).requests == [Post("/subcategory", SubmitBody(SubCategoryForm(Int(categoryId), name)))]
  {
    ParseIntOfIntToString(categoryId);
  }
}

=== FILE: task_table.dfy ===
/** The task screen: one dialog for adding and editing a task, whose service
    select depends on the chosen department. */
module TaskTable {
  import opened Wrappers
  import opened Js
  import opened Http

  datatype Task = Task(
    id: int, departmentId: int,
    customerName: string, customerAddress: string, gstNo: string,
    contactName: string, contactNo: string, emailId: string, requirement: string,
    serviceId: int)

  /** The form of the Add Task dialog: every text empty, every id 0. */
  const BlankTask := Task(0, 0, "", "", "", "", "", "", "", 0)

  datatype ServiceOption = ServiceOption(id: int, serviceName: string)

  datatype TaskState = TaskState(form: Task, editing: bool, modalOpen: bool, services: seq<ServiceOption>)

  /** `openModal(task?)`: editing a given task as it is, or adding from the blank form. */
  function OpenModal(st: TaskState, task: Option<Task>): (r: TaskState)
    ensures r.modalOpen
    ensures r.editing <==> task.Some?
    ensures task.Some? ==> r.form == task.value
    ensures task.None? ==> r.form.id == 0 && r.form.departmentId == 0 && r.form.serviceId == 0
    ensures task.None? ==> forall f: TextField :: TextOf(r.form, f) == ""
    ensures r.services == st.services
  {
    st.(editing := task.Some?, form := task.GetOr(BlankTask), modalOpen := true)
  }

  /** `handleDepartmentChange`: set the department, reset the service to 0 and
      ask for that department's services. */
  function DepartmentChanged(st: TaskState, departmentId: int): (r: Step<TaskState>)
    ensures r.state.form == st.form.(departmentId := departmentId, serviceId := 0)
    ensures r.state == st.(form := r.state.form)
    ensures r.requests == [Get("/tasks/services/" + IntToString(departmentId))]
  {
    Step(st.(form := st.form.(departmentId := departmentId, serviceId := 0)),
         [Get("/tasks/services/" + IntToString(departmentId))])
  }

  /** The answer to the services request: the fetched services, or none when it failed. */
  function ServicesFetched(st: TaskState, fetched: Option<seq<ServiceOption>>): (r: TaskState)
    ensures fetched.None? ==> r.services == []
    ensures fetched.Some? ==> r.services == fetched.value
    ensures r == st.(services := r.services)
  {
    st.(services := fetched.GetOr([]))
  }

  /** The service select. */
  function ServiceChosen(st: TaskState, serviceId: int): (r: TaskState)
    ensures r.form == st.form.(serviceId := serviceId)
    ensures r == st.(form := r.form)
  {
    st.(form := st.form.(serviceId := serviceId))
  }

  /** `handleSave`: PUT to `/tasks/{id}` when editing, POST otherwise; the
      dialog closes only when the request succeeded. */
  function Save(st: TaskState, succeeded: bool): (r: Step<TaskState>)
    ensures st.editing ==> r.requests == [Put(ItemPath("/tasks", st.form.id), TaskBody(st.form))]
    ensures !st.editing ==> r.requests == [Post("/tasks", TaskBody(st.form))]
    ensures r.state == (if succeeded then st.(modalOpen := false) else st)
  {
    var request := if st.editing then Put(ItemPath("/tasks", st.form.id), TaskBody(st.form))
                   else Post("/tasks", TaskBody(st.form));
    Step(if succeeded then st.(modalOpen := false) else st, [request])
  }

  /** The Cancel button: the dialog closes and the form is kept as it is. */
  function CloseModal(st: TaskState): (r: TaskState)
    ensures !r.modalOpen && r == st.(modalOpen := false)
  {
    st.(modalOpen := false)
  }

  /** The whole form, as sent. */
  function TaskBody(t: Task): (b: Body)
    ensures b.Keys == {"id", "departmentId", "customerName", "customerAddress", "gstNo",
                       "contactName", "contactNo", "emailId", "requirement", "serviceId"}
    ensures b["id"] == JNum(Int(t.id)) && b["departmentId"] == JNum(Int(t.departmentId))
    ensures b["serviceId"] == JNum(Int(t.serviceId))
    ensures forall f: TextField :: b[KeyOf(f)] == JStr(TextOf(t, f))
  {
    map[
      "id" := JNum(Int(t.id)),
      "departmentId" := JNum(Int(t.departmentId)),
      "customerName" := JStr(t.customerName),
      "customerAddress" := JStr(t.customerAddress),
      "gstNo" := JStr(t.gstNo),
      "contactName" := JStr(t.contactName),
      "contactNo" := JStr(t.contactNo),
      "emailId" := JStr(t.emailId),
      "requirement" := JStr(t.requirement),
      "serviceId" := JNum(Int(t.serviceId))]
  }

  /** The dialog's seven text inputs. */
  datatype TextField = CustomerName | CustomerAddress | GstNo | ContactName | ContactNo | EmailId | Requirement

  function KeyOf(f: TextField): string
  {
    match f
    case CustomerName => "customerName"
    case CustomerAddress => "customerAddress"
    case GstNo => "gstNo"
    case ContactName => "contactName"
    case ContactNo => "contactNo"
    case EmailId => "emailId"
    case Requirement => "requirement"
  }

  function TextOf(t: Task, f: TextField): string
  {
    match f
    case CustomerName => t.customerName
    case CustomerAddress => t.customerAddress
    case GstNo => t.gstNo
    case ContactName => t.contactName
    case ContactNo => t.contactNo
    case EmailId => t.emailId
    case Requirement => t.requirement
  }

  /** Typing into one text input changes that field and no other part of the task. */
  function TextEdited(st: TaskState, f: TextField, value: string): (r: TaskState)
    ensures TextOf(r.form, f) == value
    ensures forall g: TextField :: g != f ==> TextOf(r.form, g) == TextOf(st.form, g)
    ensures r.form.id == st.form.id && r.form.departmentId == st.form.departmentId && r.form.serviceId == st.form.serviceId
    ensures r == st.(form := r.form)
  {
    var t := st.form;
    var t' := match f
      case CustomerName => t.(customerName := value)
      case CustomerAddress => t.(customerAddress := value)
      case GstNo => t.(gstNo := value)
      case ContactName => t.(contactName := value)
      case ContactNo => t.(contactNo := value)
      case EmailId => t.(emailId := value)
      case Requirement => t.(requirement := value);
    st.(form := t')
  }

  /** A department change never keeps the service chosen for the previous department. */
  lemma DepartmentChangeClearsService(st: TaskState, departmentId: int, serviceId: int)
    ensures DepartmentChanged(ServiceChosen(st, serviceId), departmentId).state.form.serviceId == 0
    ensures DepartmentChanged(ServiceChosen(st, serviceId), departmentId).state.form.departmentId == departmentId
  {
  }

  /** Saving right after opening the dialog on a task PUTs that task, unchanged, to its own path. */
  lemma SaveAfterEditOpenSendsTask(st: TaskState, t: Task, succeeded: bool)
    ensures Save(OpenModal(st, Some(t)), succeeded).requests == [Put(ItemPath("/tasks", t.id), TaskBody(t))]
  {
  }

  /** Saving right after opening the dialog for a new task POSTs the blank task. */
  lemma SaveAfterAddOpenSendsBlank(st: TaskState, succeeded: bool)
    ensures Save(OpenModal(st, None), succeeded).requests == [Post("/tasks", TaskBody(BlankTask))]
  {
  }
}

=== FILE: update_product_modal.dfy ===
/** The product update dialog. Unlike the create dialog, its selects are not
    guarded: any value, the placeholder included, is taken as chosen. Its three
    text inputs and its sub-category select are `required`, so the browser
    holds the submit back until they are filled. */
module UpdateProductModal {
  import opened Wrappers
  import opened Js
  import opened Http
  import opened Catalog
  import opened Browser

  /** A product as `GET /products/{id}` returns it. */
  datatype Product = Product(productName: string, productDescription: string, hsn: string, categoryId: int, subCategoryId: int)

  datatype UpdateState = UpdateState(
    productName: string, productDescription: string, hsn: string,
    categoryId: string, subCategoryId: string,
    categories: seq<Category>,
    subCategories: seq<SubCategory>)

  /** The prefill effect's fetch: it is sent only while the dialog is shown
      and the product id is non-empty. */
  function PrefillRequests(show: bool, productId: string): (r: seq<Request>)
    ensures |r| <= 1
    ensures r != [] <==> show && productId != ""
    ensures r != [] ==> r[0] == Get("/products/" + productId)
  {
    if show && productId != "" then [Get("/products/" + productId)] else []
  }

  /** The prefill effect once the product has arrived: the three text fields,
      both ids written in decimal (`toString()`), and the options of the
      category with that text (`fetchSubCategories`). */
  function Prefilled(st: UpdateState, p: Product): (r: UpdateState)
    ensures r.productName == p.productName && r.productDescription == p.productDescription && r.hsn == p.hsn
    ensures r.categoryId == IntToString(p.categoryId) && r.subCategoryId == IntToString(p.subCategoryId)
    ensures ParseInt(r.categoryId) == Int(p.categoryId) && ParseInt(r.subCategoryId) == Int(p.subCategoryId)
    ensures r.subCategories == SubCategoriesFor(st.categories, r.categoryId)
    ensures r == st.(productName := p.productName, productDescription := p.productDescription, hsn := p.hsn,
                     categoryId := r.categoryId, subCategoryId := r.subCategoryId, subCategories := r.subCategories)
  {
    ParseIntOfIntToString(p.categoryId);
    ParseIntOfIntToString(p.subCategoryId);
    st.(productName := p.productName, productDescription := p.productDescription, hsn := p.hsn,
        categoryId := IntToString(p.categoryId), subCategoryId := IntToString(p.subCategoryId),
        subCategories := SubCategoriesFor(st.categories, IntToString(p.categoryId)))
  }

  /** With unique ids, the prefill offers the sub-categories of the product's own category. */
  lemma PrefillOffersProductCategory(st: UpdateState, p: Product, i: int)
    requires UniqueIds(st.categories) && 0 <= i < |st.categories|
    requires st.categories[i].id == p.categoryId
    ensures Prefilled(st, p).subCategories == st.categories[i].subCategories
  {
    SubCategoriesForOption(st.categories, i);
  }

  /** `handleCategoryChange`: the value is taken as it is, even the
      placeholder `""`; the sub-category is cleared and its options reloaded. */
  function CategoryChanged(st: UpdateState, value: string): (r: UpdateState)
    ensures r.categoryId == value && r.subCategoryId == ""
    ensures r.subCategories == SubCategoriesFor(st.categories, value)
    ensures r == st.(categoryId := value, subCategoryId := "", subCategories := r.subCategories)
  {
    st.(categoryId := value, subCategories := SubCategoriesFor(st.categories, value), subCategoryId := "")
  }

  /** `handleSubCategoryChange`: the value is taken without checking it against the options. */
  function SubCategoryChanged(st: UpdateState, value: string): (r: UpdateState)
    ensures r.subCategoryId == value
    ensures r == st.(subCategoryId := value)
  {
    st.(subCategoryId := value)
  }

  /** The PUT body: the three text fields and both ids through `parseInt(_, 10)`. */
  function Payload(st: UpdateState): (b: Body)
    ensures b.Keys == {"productName", "productDescription", "HSN", "categoryId", "subCategoryId"}
    ensures b["productName"] == JStr(st.productName) && b["productDescription"] == JStr(st.productDescription)
    ensures b["HSN"] == JStr(st.hsn)
    ensures b["categoryId"] == JNum(ParseInt(st.categoryId))
    ensures b["subCategoryId"] == JNum(ParseInt(st.subCategoryId))
  {
    map[
      "productName" := JStr(st.productName),
      "productDescription" := JStr(st.productDescription),
      "HSN" := JStr(st.hsn),
      "categoryId" := JNum(ParseInt(st.categoryId)),
      "subCategoryId" := JNum(ParseInt(st.subCategoryId))]
  }

  /** The form's constraint check: the three text inputs are filled and the
      sub-category select holds one of its options. The category select is
      not `required`. */
  predicate Submittable(st: UpdateState)
  {
    Filled(st.productName) && Filled(st.productDescription) && Filled(st.hsn)
    && SelectFilled(SubCategoryOptionValues(st.subCategories), st.subCategoryId)
  }

  /** `handleSubmit`: once the form passes its check, a PUT to the product's
      path, its id through `parseInt(_, 10)` and written back as text (`NaN`
      when it has no digits); otherwise nothing is sent. */
  function Submit(st: UpdateState, productId: string): (r: Option<Request>)
    ensures r.Some? <==> Submittable(st)
    ensures r.Some? ==> r.value.Put? && r.value.body == Payload(st)
    ensures r.Some? ==> r.value.path == "/products/" + NumToString(ParseInt(productId))
  {
    if Submittable(st) then Some(Put("/products/" + NumToString(ParseInt(productId)), Payload(st))) else None
  }

  /** The selected sub-category is empty or names one of the offered options. */
  predicate SelectionConsistent(st: UpdateState)
  {
    st.subCategoryId == ""
    || exists i :: 0 <= i < |st.subCategories| && Int(st.subCategories[i].id) == ParseInt(st.subCategoryId)
  }

  /** Submitting a prefilled dialog that nobody touched sends the product back
      as it was fetched, to the path of its own id, provided its text fields
      are non-empty and its sub-category is listed under its category. */
  lemma UntouchedPrefillSendsProduct(st: UpdateState, p: Product, id: int, i: int, j: int)
    requires UniqueIds(st.categories) && 0 <= i < |st.categories| && st.categories[i].id == p.categoryId
    requires 0 <= j < |st.categories[i].subCategories| && st.categories[i].subCategories[j].id == p.subCategoryId
    requires Filled(p.productName) && Filled(p.productDescription) && Filled(p.hsn)
    ensures var r := Submit(Prefilled(st, p), IntToString(id));
      && r.Some?
      && r.value.path == "/products/" + IntToString(id)
      && r.value.body["productName"] == JStr(p.productName)
      && r.value.body["productDescription"] == JStr(p.productDescription)
      && r.value.body["HSN"] == JStr(p.hsn)
      && r.value.body["categoryId"] == JNum(Int(p.categoryId))
      && r.value.body["subCategoryId"] == JNum(Int(p.subCategoryId))
  {
    var q := Prefilled(st, p);
    PrefillOffersProductCategory(st, p, i);
    assert SubCategoryOptionValues(q.subCategories)[j] == q.subCategoryId;
    assert Submittable(q);
    ParseIntOfIntToString(id);
  }

  /** A category change clears the sub-category: the selection is consistent,
      and the submit waits until a sub-category is chosen. */
  lemma CategoryChangeAwaitsSubCategory(st: UpdateState, value: string, productId: string)
    ensures SelectionConsistent(CategoryChanged(st, value))
    ensures Submit(CategoryChanged(st, value), productId).None?
  {
  }

  /** Choosing the placeholder category offers no sub-category, so whatever
      the sub-category select then holds, the submit is held back. */
  lemma PlaceholderCategoryBlocksSubmit(st: UpdateState, value: string, productId: string)
    ensures CategoryChanged(st, "").subCategories == []
    ensures Submit(SubCategoryChanged(CategoryChanged(st, ""), value), productId).None?
  {
    SubCategoriesForPlaceholder(st.categories);
  }

  /** When the product's category is missing from the loaded list (the list
      read by the prefill can be an earlier one), no option is offered: the
      prefilled sub-category names none, and the dialog cannot be submitted
      until another category is chosen. */
  lemma {:induction false} StalePrefillOffersNothing(st: UpdateState, p: Product, productId: string)
    requires forall i :: 0 <= i < |st.categories| ==> st.categories[i].id != p.categoryId
    ensures Prefilled(st, p).subCategories == []
    ensures !SelectionConsistent(Prefilled(st, p))
    ensures Submit(Prefilled(st, p), productId).None?
  {
    forall i | 0 <= i < |st.categories| ensures IntToString(st.categories[i].id) != IntToString(p.categoryId) {
      IntToStringInjective(st.categories[i].id, p.categoryId);
    }
    assert IntToString(p.subCategoryId) != "";
  }
}

=== FILE: update_user_modal.dfy ===
/** The user update dialog: department checkboxes kept as a list of ids, the
    prefill from the fetched user, and the update request. Its five inputs are
    `required` and the e-mail input has type `email`, so the browser holds the
    submit back until they are filled and the address is well formed. */
module UpdateUserModal {
  import opened Wrappers
  import opened Js
  import opened Http
  import opened Browser
  import Seqs

  datatype Department = Department(id: int, departmentName: string)

  /** A fetched user; `departments` may be missing from the response. */
  datatype User = User(
    id: string, username: string, firstName: string, lastName: string,
    contactNumber: string, emailId: string, userType: string,
    departments: Option<seq<Department>>)

  datatype UserForm = UserForm(
    username: string, firstName: string, lastName: string,
    contactNumber: string, emailId: string, userType: string,
    departmentIds: seq<int>)

  /** `ids.filter(d => d !== id)` */
  function Without(ids: seq<int>, id: int): (r: seq<int>)
    ensures id !in r
    ensures forall x :: x != id ==> (x in r <==> x in ids)
    ensures |r| <= |ids|
  {
    if |ids| == 0 then []
    else (if ids[0] == id then [] else [ids[0]]) + Without(ids[1..], id)
  }

  /** `handleCheckboxChange`: a present id is removed everywhere, an absent one is appended. */
  function Toggle(ids: seq<int>, id: int): (r: seq<int>)
    ensures id in r <==> id !in ids
    ensures id in ids ==> r == Without(ids, id)
    ensures id !in ids ==> r == ids + [id]
  {
    if id in ids then Without(ids, id) else ids + [id]
  }

  /** No id occurs twice. */
  predicate NoDuplicates(ids: seq<int>)
  {
    forall i, j :: 0 <= i < j < |ids| ==> ids[i] != ids[j]
  }

  lemma {:induction false} WithoutAbsent(ids: seq<int>, id: int)
    requires id !in ids
    ensures Without(ids, id) == ids
  {
    if |ids| > 0 {
      WithoutAbsent(ids[1..], id);
      assert [ids[0]] + ids[1..] == ids;
    }
  }

  lemma {:induction false} WithoutAppend(a: seq<int>, b: seq<int>, id: int)
    ensures Without(a + b, id) == Without(a, id) + Without(b, id)
  {
    if |a| == 0 {
      assert a + b == b;
    } else {
      assert (a + b)[1..] == a[1..] + b;
      WithoutAppend(a[1..], b, id);
    }
  }

  lemma {:induction false} WithoutKeepsNoDuplicates(ids: seq<int>, id: int)
    requires NoDuplicates(ids)
    ensures NoDuplicates(Without(ids, id))
  {
    if |ids| > 0 {
      assert NoDuplicates(ids[1..]);
      WithoutKeepsNoDuplicates(ids[1..], id);
      var rest := Without(ids[1..], id);
      if ids[0] != id {
        assert ids[0] !in ids[1..];
        assert ids[0] !in rest;
        var r := [ids[0]] + rest;
        forall i, j | 0 <= i < j < |r| ensures r[i] != r[j] {
          if i == 0 { assert r[j] in rest; }
          else { assert r[i] == rest[i - 1] && r[j] == rest[j - 1]; }
        }
      }
    }
  }

  /** Toggling flips the id's membership and leaves every other id where it
      was: with that id removed, the list is the same before and after. */
  lemma ToggleKeepsOthers(ids: seq<int>, id: int)
    ensures (id in Toggle(ids, id)) <==> (id !in ids)
    ensures Without(Toggle(ids, id), id) == Without(ids, id)
  {
    if id in ids {
      WithoutAbsent(Without(ids, id), id);
    } else {
      WithoutAppend(ids, [id], id);
      assert Without([id], id) == [];
      assert Without(ids, id) + [] == Without(ids, id);
    }
  }

  /** Ticking an unticked department and then unticking it restores the list. */
  lemma ToggleTwiceAbsent(ids: seq<int>, id: int)
    requires id !in ids
    ensures Toggle(Toggle(ids, id), id) == ids
  {
    WithoutAppend(ids, [id], id);
    WithoutAbsent(ids, id);
    assert Without([id], id) == [];
    assert ids + [] == ids;
  }

  /** A list without duplicates stays without duplicates. */
  lemma ToggleKeepsNoDuplicates(ids: seq<int>, id: int)
    requires NoDuplicates(ids)
    ensures NoDuplicates(Toggle(ids, id))
  {
    if id in ids {
      WithoutKeepsNoDuplicates(ids, id);
    }
  }

  /** The ids of the user's departments, or none when the response has no departments. */
  function DepartmentIds(u: User): (r: seq<int>)
    ensures u.departments.None? ==> r == []
    ensures u.departments.Some? ==>
      |r| == |u.departments.value| && forall i :: 0 <= i < |r| ==> r[i] == u.departments.value[i].id
  {
    match u.departments
    case None => []
    case Some(ds) => Seqs.Map(ds, (d: Department) => d.id)
  }

  /** The prefill effect: with the dialog shown, a user id given and the user
      fetched, the form takes the user's fields; otherwise it stays. */
  function Prefill(form: UserForm, show: bool, userId: string, fetched: Option<User>): (r: UserForm)
    ensures !show || userId == "" || fetched.None? ==> r == form
    ensures show && userId != "" && fetched.Some? ==>
      var u := fetched.value;
      r == UserForm(u.username, u.firstName, u.lastName, u.contactNumber, u.emailId, u.userType, DepartmentIds(u))
  {
    if show && userId != "" && fetched.Some? then
      var u := fetched.value;
      UserForm(u.username, u.firstName, u.lastName, u.contactNumber, u.emailId, u.userType, DepartmentIds(u))
    else form
  }

  /** `handleSubmit`'s body: the five text fields and the department ids, without the user type. */
  function UpdatePayload(f: UserForm): (b: Body)
    ensures b.Keys == {"username", "firstName", "lastName", "contactNumber", "emailId", "departmentIds"}
    ensures "userType" !in b
    ensures b["username"] == JStr(f.username) && b["firstName"] == JStr(f.firstName)
    ensures b["lastName"] == JStr(f.lastName) && b["contactNumber"] == JStr(f.contactNumber)
    ensures b["emailId"] == JStr(f.emailId) && b["departmentIds"] == JNums(f.departmentIds)
  {
    map[
      "username" := JStr(f.username),
      "firstName" := JStr(f.firstName),
      "lastName" := JStr(f.lastName),
      "contactNumber" := JStr(f.contactNumber),
      "emailId" := JStr(f.emailId),
      "departmentIds" := JNums(f.departmentIds)]
  }

  /** The form's constraint check: the five inputs are filled and the e-mail
      input holds a valid address. */
  predicate Submittable(f: UserForm)
  {
    Filled(f.username) && Filled(f.firstName) && Filled(f.lastName) && Filled(f.contactNumber)
    && Filled(f.emailId) && ValidEmail(f.emailId)
  }

  /** `handleSubmit`: once the form passes its check, PUT the payload to
      `/users/{userId}`; otherwise nothing is sent. */
  function Submit(f: UserForm, userId: string): (r: Option<Request>)
    ensures r.Some? <==> Submittable(f)
    ensures r.Some? ==> r.value.Put? && r.value.path == "/users/" + userId && r.value.body == UpdatePayload(f)
  {
    if Submittable(f) then Some(Put("/users/" + userId, UpdatePayload(f))) else None
  }

  /** Changing the user type in the form changes nothing that is sent. */
  lemma UserTypeIsNotSent(f: UserForm, userType: string, userId: string)
    ensures Submit(f.(userType := userType), userId) == Submit(f, userId)
  {
  }

  /** An e-mail value without `@` holds the submit back. */
  lemma AddressWithoutAtBlocksSubmit(f: UserForm, userId: string)
    requires '@' !in f.emailId
    ensures Submit(f, userId).None?
  {
    EmailNeedsAt(f.emailId);
  }

  /** A user fetched with filled-in fields and an address of the form
      `local@domain` is sent back unchanged when the prefilled dialog is
      submitted untouched. */
  lemma UntouchedPrefillSendsUser(form: UserForm, userId: string, u: User, local: string, domain: string)
    requires userId != ""
    requires Filled(u.username) && Filled(u.firstName) && Filled(u.lastName) && Filled(u.contactNumber)
    requires |local| >= 1 && (forall i :: 0 <= i < |local| ==> IsLocalChar(local[i])) && IsLabel(domain)
    requires u.emailId == local + "@" + domain
    ensures var r := Submit(Prefill(form, true, userId, Some(u)), userId);
      && r.Some?
      && r.value.body["username"] == JStr(u.username)
      && r.value.body["emailId"] == JStr(u.emailId)
      && r.value.body["departmentIds"] == JNums(DepartmentIds(u))
  {
    SingleLabelAddressValid(local, domain);
  }
}

=== FILE: use_auth.dfy ===
/** The authentication hook: token expiry, login through the auth service,
    logout, and the session restore it performs when it mounts. Decoding a
    token's payload and the clock are parameters. */
module UseAuth {
  import opened Wrappers
  import opened Js
  import opened Browser

  datatype AuthState = AuthState(loading: bool, error: Option<string>, userId: Option<Num>, userType: Option<string>)

  /** The hook's state on first render. */
  const Initial := AuthState(false, None, None, None)

  /** What base64- and JSON-decoding a token's middle segment gives: a
      failure, or an object whose `exp` (seconds since the epoch) may be missing. */
  datatype TokenPayload = Undecodable | Decoded(exp: Option<int>)

  /** The auth service's answer: it turns every failure into one message,
      and otherwise returns the server's data: the token, the user's id (which
      the data may lack) and role. */
  datatype ServiceResult = ServiceFailed | Issued(accessToken: string, id: Option<int>, userType: string)

  /** What a call leaves behind: the hook's state, the storage, and (for login) the promise's value. */
  datatype AuthOutcome = AuthOutcome(state: AuthState, storage: Storage, returned: bool)

  const ServiceFailure := "Something went wrong during login."
  const TokenExpired := "Token is expired."

  /** `isTokenExpired`: a token without a middle segment, or whose payload
      does not decode, counts as expired; a payload without `exp` never
      expires (`undefined * 1000 < now` is false); otherwise the token has
      expired once `exp` seconds lie before `now` milliseconds. */
  function IsTokenExpired(token: string, decode: string -> TokenPayload, now: int): (r: bool)
    ensures |Split(token, '.')| < 2 ==> r
    ensures |Split(token, '.')| >= 2 ==>
      (r <==> match decode(Split(token, '.')[1])
              case Undecodable => true
              case Decoded(exp) => exp.Some? && exp.value * 1000 < now)
  {
    var parts := Split(token, '.');
    if |parts| < 2 then true
    else
      match decode(parts[1])
      case Undecodable => true
      case Decoded(None) => false
      case Decoded(Some(exp)) => exp * 1000 < now
  }

  /** `login`: loading is raised and the error cleared; a service failure or
      an expired token sets the error and resolves to false with nothing
      stored; otherwise the session is stored and resolves to true. When the
      data lacks the id, the token is already stored before `id.toString()`
      throws, and the call resolves to false with that TypeError's message.
      Loading is lowered in every case. */
  function Login(st: AuthState, storage: Storage, result: ServiceResult, decode: string -> TokenPayload, now: int): (r: AuthOutcome)
    ensures !r.state.loading
    ensures r.returned <==> result.Issued? && !IsTokenExpired(result.accessToken, decode, now) && result.id.Some?
    ensures !r.returned ==> r.state == st.(loading := false, error := r.state.error)
    ensures result.ServiceFailed? ==> r.state.error == Some(ServiceFailure) && r.storage == storage
    ensures result.Issued? && IsTokenExpired(result.accessToken, decode, now) ==>
              r.state.error == Some(TokenExpired) && r.storage == storage
    ensures result.Issued? && !IsTokenExpired(result.accessToken, decode, now) && result.id.None? ==>
              r.state.error == Some(UndefinedToStringMessage) && r.storage == storage["access_token" := result.accessToken]
    ensures r.returned ==>
      && r.state == AuthState(false, None, Some(Int(result.id.value)), Some(result.userType))
      && r.storage == storage["access_token" := result.accessToken]["userId" := IntToString(result.id.value)]["userType" := result.userType]
  {
    var started := st.(loading := true, error := None);
    match result
    case ServiceFailed =>
      AuthOutcome(started.(error := Some(ServiceFailure), loading := false), storage, false)
    case Issued(token, id, userType) =>
      if IsTokenExpired(token, decode, now) then
        AuthOutcome(started.(error := Some(TokenExpired), loading := false), storage, false)
      else
        var tokenStored := storage["access_token" := token];
        match id
        case None =>
          AuthOutcome(started.(error := Some(UndefinedToStringMessage), loading := false), tokenStored, false)
        case Some(n) =>
          var stored := tokenStored["userId" := IntToString(n)]["userType" := userType];
          AuthOutcome(started.(userId := Some(Int(n)), userType := Some(userType), loading := false), stored, true)
  }

  /** `logout`: all of storage is cleared and the user forgotten. */
  function Logout(st: AuthState, storage: Storage): (r: AuthOutcome)
    ensures r.storage == map[]
    ensures r.state == st.(userId := None, userType := None)
  {
    AuthOutcome(st.(userId := None, userType := None), map[], false)
  }

  /** The mount effect: a stored token that has expired logs out; otherwise,
      when both the user id and the role are stored and non-empty, they are
      restored, the id through `Number`. */
  function Mount(st: AuthState, storage: Storage, decode: string -> TokenPayload, now: int): (r: AuthOutcome)
    ensures Present(GetItem(storage, "access_token")) && IsTokenExpired(storage["access_token"], decode, now) ==>
              r == Logout(st, storage)
    ensures !(Present(GetItem(storage, "access_token")) && IsTokenExpired(storage["access_token"], decode, now)) ==>
      && r.storage == storage
      && (Present(GetItem(storage, "userId")) && Present(GetItem(storage, "userType")) ==>
            r.state == st.(userId := Some(ToNumber(storage["userId"])), userType := Some(storage["userType"])))
      && (!(Present(GetItem(storage, "userId")) && Present(GetItem(storage, "userType"))) ==> r.state == st)
  {
    var token := GetItem(storage, "access_token");
    var storedUserId := GetItem(storage, "userId");
    var storedUserType := GetItem(storage, "userType");
    if Present(token) && IsTokenExpired(token.value, decode, now) then Logout(st, storage)
    else if Present(storedUserId) && Present(storedUserType) then
      AuthOutcome(st.(userId := Some(ToNumber(storedUserId.value)), userType := Some(storedUserType.value)), storage, false)
    else AuthOutcome(st, storage, false)
  }

  /** A token that has expired stays expired as time passes. */
  lemma ExpiryIsMonotonic(token: string, decode: string -> TokenPayload, now: int, later: int)
    requires now <= later
    requires IsTokenExpired(token, decode, now)
    ensures IsTokenExpired(token, decode, later)
  {
  }

  /** A token whose payload carries no `exp` is never expired. */
  lemma NoExpNeverExpires(header: string, payload: string, rest: string, decode: string -> TokenPayload, now: int)
    requires '.' !in header && '.' !in payload
    requires decode(payload) == Decoded(None)
    ensures !IsTokenExpired(header + "." + payload + "." + rest, decode, now)
  {
    assert header + "." + payload + "." + rest == header + ['.'] + (payload + ['.'] + rest);
    SplitAtSeparator(header, '.', payload + ['.'] + rest);
    SplitAtSeparator(payload, '.', rest);
  }

  /** A successful login is what the next mount restores, as long as the
      token is still valid then and the role is not empty. */
  lemma LoginThenMountRestores(storage: Storage, token: string, id: int, userType: string,
                               decode: string -> TokenPayload, now: int, later: int)
    requires !IsTokenExpired(token, decode, now) && !IsTokenExpired(token, decode, later)
    requires userType != ""
    ensures var login := Login(Initial, storage, Issued(token, Some(id), userType), decode, now);
      var mount := Mount(Initial, login.storage, decode, later);
      && login.returned
      && mount.state.userId == Some(Int(id)) && mount.state.userType == Some(userType)
      && mount.storage == login.storage
  {
    var login := Login(Initial, storage, Issued(token, Some(id), userType), decode, now);
    var s := login.storage;
    assert s["access_token"] == token && s["userId"] == IntToString(id) && s["userType"] == userType;
    assert !(Present(GetItem(s, "access_token")) && IsTokenExpired(s["access_token"], decode, later));
    assert Present(GetItem(s, "userId")) && Present(GetItem(s, "userType")) by {
      assert IntToString(id) != "";
    }
    NumberOfIntToString(id);
  }

  /** Once logged out, a mount finds nothing to restore. */
  lemma LogoutThenMountRestoresNothing(st: AuthState, storage: Storage, decode: string -> TokenPayload, now: int)
    ensures var out := Logout(st, storage);
      Mount(out.state, out.storage, decode, now).state.userId.None?
  {
  }

  /** A login whose data lacks the id fails, yet leaves its valid token
      stored next to the id and role of an earlier session; the next mount
      then restores that earlier user. */
  lemma MissingIdRestoresEarlierUser(storage: Storage, token: string, userType: string,
                                     decode: string -> TokenPayload, now: int, later: int)
    requires !IsTokenExpired(token, decode, now) && !IsTokenExpired(token, decode, later)
    requires Present(GetItem(storage, "userId")) && Present(GetItem(storage, "userType"))
    ensures var login := Login(Initial, storage, Issued(token, None, userType), decode, now);
      var mount := Mount(Initial, login.storage, decode, later);
      && !login.returned
      && login.state.error == Some(UndefinedToStringMessage)
      && login.storage["access_token"] == token
      && mount.state.userId == Some(ToNumber(storage["userId"]))
      && mount.state.userType == Some(storage["userType"])
  {
    var s := Login(Initial, storage, Issued(token, None, userType), decode, now).storage;
    assert s["access_token"] == token && s["userId"] == storage["userId"] && s["userType"] == storage["userType"];
  }
}

=== FILE: wrappers.dfy ===
/** The optional value used wherever the console holds `null`, `undefined`
    or "not found". */
module Wrappers {

  datatype Option<+T> = None | Some(value: T) {

    /** The value, or `default` when there is none (JavaScript's `x || d` on an optional). */
    function GetOr(default: T): T
    {
      match this
      case Some(v) => v
      case None => default
    }
  }
}
